=== FILE: README.md ===
# Shoe-Store storefront core, modelled in Dafny

This project models the request handlers behind the Nexus Store shoe shop:

- registration and the two-step login, where a password check is followed by a six-digit code sent by email (`userapp/views.py`);
- the cart, checkout and order pages of the storefront (`main/views.py`);
- the back office's access guard, its order-status update, and the figures its dashboard and sales report compute (`adminapp/views.py`).

Each handler is a pure function from the database tables, and the browser session where it uses one, to the new tables and the outcome (the page the request ends on).

Modules:

- `Wrappers` holds `Option`.
- `Ids` holds `UserId`, the user id that both the account tables and the shop tables use.
- `UserApp` holds users, profiles and one browser session, with `Register`, `Login`, `Verify` and `Logout`.
- `Catalog` holds the shop tables: products, carts and their lines, orders and their lines. It also holds the database integrity predicate `Valid`.
- `Cart` holds `GetOrCreateCart`, `AddToCart`, `RemoveFromCart` and `UpdateCartItem`.
- `Checkout` holds `CheckoutForm`, `Checkout`, `OrderConfirmation` and `MyOrders`.
- `AdminApp` holds `AdminRequired` and `UpdateOrderStatus`.
- `Reports` holds total revenue, average order value, the low-stock list, the seven-day histogram, the top sellers and the per-status counts.

Modelling choices:

- The modelled views never delete users or orders, so their ids are their positions in the table. Cart lines are deleted, so they carry explicit ids.
- The two session keys set by the first login step are always set and removed together, so they are one `Option<Pending>`.
- Logging out discards the whole session.
- Money is an integer in the smallest currency unit. Time is an integer number of seconds. A calendar day is `t / 86400`.
- The login code generator and the mail transport are parameters: `code` and `sent` / `welcomeSent`.
- A submitted code is an `Option<string>`, because a missing form field reads as `None`. The stored code is compared with the submitted one as `Option`s, as the source compares two possibly-`None` values.

Behaviour of the code that the model keeps as written:

- When a code has expired, `verify_otp` clears the session markers but leaves the stored code on the profile (`userapp/views.py:168-174`). `Verify` keeps the stored code too.
- After a code has been accepted, the profile's code is `None`. Take a request from another session that still holds a pending login for the same user, with no `otp` field, while that login's code is within its ten minutes. It compares `None == None` and is accepted. It logs in, or crashes as described below when that session is logged in as another user. `MissingCodeMatchesConsumedCode` states this. A submitted code, as opposed to a missing one, can never be replayed: `AcceptedCodeCannotBeReplayed` states that.
- A matching code is accepted by a session that is already logged in as a different user too. Then Django's `login` flushes that session, and deleting `login_user_id` afterwards raises `KeyError`, a server error (`userapp/views.py:177-187`). By then the profile has been saved as verified with its code cleared. Because the session is not saved on an error response, the browser is left with no session. `Verify` models this as the `LoginCrashed` outcome: it leads to the error page, consumes the profile's code, and leaves an empty session.

## Model

| member | source | states |
|---|---|---|
| UserApp.FindUsername | userapp/views.py:26 | finds the first user with the given user name, and returns none exactly when no user has that name |
| UserApp.Register | userapp/views.py:12-39 | a password mismatch comes first and changes nothing; a taken email changes nothing; an empty email, otherwise accepted, fails in user creation with the error page and changes nothing; otherwise exactly one non-staff user is appended, with the email as user name and email address, the given name and the given password, with a fresh, code-less profile, the page goes to login, and the database stays well formed |
| UserApp.RegisterAddsOneUserAndProfile | userapp/views.py:31-39 | a successful registration adds exactly one user and one profile |
| UserApp.RegisterKeepsUsernamesUnique | userapp/views.py:26-28 | no registration can create two accounts with the same user name |
| UserApp.RegisterThenLogin | userapp/views.py:79-90 | the account just registered can start a login with the same email and password, whether or not the welcome email went out |
| UserApp.Login | userapp/views.py:96-148 | an unknown email goes to registration; a wrong password ends in the wrong-password outcome and changes nothing; on correct credentials the outcome is "code sent" or "send failed" according to the mail transport, the profile gets the new code, its issue time and verified=false, and the session gets the pending markers only when the email was sent |
| UserApp.Verify | userapp/views.py:154-199 | exactly a session without a pending login goes to the login page; exactly a pending user who no longer exists goes to the login page with the markers kept; exactly a pending user without a profile ends in a server error; a code older than 600 seconds expires and clears the markers; a matching code marks the profile verified and consumes the code, and then either logs the user in and clears the markers, or, when the session belonged to another logged-in user, ends in a server error with an empty session; any other code changes nothing |
| UserApp.LoginThenVerify | userapp/views.py:129-138 | submitting the emailed code within ten minutes logs in the user whose password was checked, unless the session was logged in as someone else, where the request crashes |
| UserApp.LateCodeNeverLogsIn | userapp/views.py:168-174 | after ten minutes no submitted code logs in, and the pending login is dropped |
| UserApp.AcceptedCodeCannotBeReplayed | userapp/views.py:177-187 | once accepted (logged in or crashed after consuming it), a code cannot be accepted again, from the same session or from another one pending for that user |
| UserApp.MissingCodeMatchesConsumedCode | userapp/views.py:160-179 | once the code has been consumed, a request with no code field from another session pending for that user is accepted: logged in, or crashed when that session belongs to another logged-in user |
| UserApp.WrongCodesDoNotLockOut | userapp/views.py:191-193 | any number of wrong codes within the window changes nothing, and the right code is still accepted afterwards |
| UserApp.Logout | userapp/views.py:203-206 | after logout nobody is logged in and no login is pending |
| Cart.GetOrCreateCart | main/views.py:60-63 | the user has a cart afterwards; no other cart and no other table changes |
| Cart.AddToCart | main/views.py:68-85 | a missing or inactive product is a 404 that changes nothing; otherwise the user's line for the product gains the requested quantity (default 1), created when absent, and every other line stays |
| Cart.AddToCartKeepsValid | main/views.py:75-83 | adding keeps ids unique and fresh, and one line per product in a cart |
| Cart.AddToCartKeepsQuantitiesPositive | main/views.py:73-83 | with a positive requested quantity, every line keeps at least one unit |
| Cart.RemoveFromCart | main/views.py:102-106 | a line outside the user's cart is a 404 that changes nothing; otherwise exactly the line with that id is gone |
| Cart.RemoveFromCartKeepsValid | main/views.py:104-105 | removing keeps the database constraints |
| Cart.UpdateCartItem | main/views.py:111-122 | a line outside the user's cart is a 404; a positive quantity overwrites only that line's quantity; zero or less deletes exactly that line |
| Cart.UpdateCartItemKeepsValid | main/views.py:116-120 | updating keeps the database constraints |
| Cart.UpdateCartItemKeepsQuantitiesPositive | main/views.py:116-120 | an update never leaves a line with fewer than one unit |
| Cart.ForeignLinesUntouchable | main/views.py:104 | a user can neither remove nor update a line of someone else's cart |
| Checkout.CheckoutForm | main/views.py:126-170 | an empty cart goes back to the cart page; otherwise the form shows the cart total |
| Checkout.Checkout | main/views.py:126-162 | an order at the cart total, pending, is appended; one order line per cart line with the current price; every product's stock drops by the quantity ordered; the user's cart is emptied and other carts are untouched |
| Checkout.TakeStock | main/views.py:155-157 | each product's stock drops by the total quantity of its lines; no other product field changes |
| Checkout.CheckoutFormShowsOrderTotal | main/views.py:130-144 | the total the form shows is the total of the order that submitting it places, and both refuse an empty cart |
| Checkout.OrderLines | main/views.py:147-153 | one order line per cart line, with the product, quantity and current unit price |
| Checkout.OrderLinesTotal | main/views.py:138-153 | the order lines add up to the cart total |
| Checkout.CheckoutTakesEachLineOnce | main/views.py:155-157 | with one line per product, each product in the cart loses exactly its line's quantity, and other products keep their stock |
| Checkout.CheckoutOrderMatchesItsLines | main/views.py:138-162 | the placed order's stored lines are exactly the copied cart lines, they sum to its total, and its owner can open its confirmation |
| Checkout.CheckoutKeepsValid | main/views.py:138-160 | checkout keeps the database constraints |
| Checkout.OrderConfirmation | main/views.py:174-181 | only the owner of an existing order sees it, with exactly its lines |
| Checkout.MyOrders | main/views.py:185-191 | lists exactly the user's orders, each once, oldest first |
| Checkout.CheckoutExtendsMyOrders | main/views.py:138-144 | a checkout appends the new order to its owner's list and leaves every other user's list unchanged |
| AdminApp.AdminRequired | adminapp/views.py:12-19 | anonymous visitors go to login, non-staff users go home, and only staff run the view |
| AdminApp.ViewerOf | adminapp/views.py:14-16 | a session stands for a member exactly when it names an existing user, with that user's staff flag |
| AdminApp.ParseStatus | adminapp/views.py:160 | only a declared status name is accepted, and it is read as that status |
| AdminApp.ParseStatusRoundTrip | adminapp/views.py:160 | every status's stored name reads back as that status |
| AdminApp.UpdateOrderStatus | adminapp/views.py:153-166 | a declared status on an existing order changes that order's status only; anything else changes nothing |
| AdminApp.UpdateOrderStatusKeepsValid | adminapp/views.py:156-162 | status updates keep the database constraints |
| AdminApp.LogoutLocksBackOffice | adminapp/views.py:14-15 | after logout the back office redirects to login |
| AdminApp.PasswordStepGrantsNothing | adminapp/views.py:12-19 | the password step of login alone never changes back-office access |
| AdminApp.CodeStepGrantsStaffOnly | adminapp/views.py:14-18 | a completed code check opens the back office to staff users and sends others home |
| AdminApp.CrashedCodeStepLocksBackOffice | adminapp/views.py:14-15 | after the code step crashes on a session of another user, the back office redirects to login |
| Reports.TotalRevenue | adminapp/views.py:30 | revenue of no orders is 0 (the `or 0` of an empty sum), and orders with non-negative totals give non-negative revenue |
| Reports.AverageOrderValue | adminapp/views.py:174-176 | with orders, the average times the order count is the revenue; without orders, it is 0 |
| Reports.CheckoutAddsCartTotal | adminapp/views.py:30 | a checkout raises revenue by exactly the cart total |
| Reports.StatusUpdateKeepsRevenue | adminapp/views.py:174 | status changes never change revenue |
| Reports.RevenueAppend | adminapp/views.py:30 | revenue of two order lists together is the sum of their revenues |
| Reports.CheckoutOnlyGrowsLowStock | adminapp/views.py:36 | with positive quantities, a checkout never removes a product from the low-stock list (the products with fewer than five in stock) |
| Reports.DailyOrders | adminapp/views.py:183-187 | seven counts, oldest first, the last for today, each the number of orders created on that day |
| Reports.DailyOrdersCoverTheWeek | adminapp/views.py:183-187 | the seven counts add up to the orders created in the last seven days |
| Reports.CheckoutCountsToday | adminapp/views.py:183-187 | an order placed now adds one to today's bar and changes no other bar |
| Reports.StatusBreakdown | adminapp/views.py:195-198 | each of the four fields is the number of orders with that status, and the four add up to the number of orders |
| Reports.StatusCountIsMultiplicity | adminapp/views.py:195-198 | the count for a status is how often it occurs in the multiset of the orders' statuses |
| Reports.StatusUpdateMovesOneOrder | adminapp/views.py:195-198 | a status update moves exactly one order from its old status count to its new one |
| Reports.Names | adminapp/views.py:190 | the distinct names of the products sold, each once |
| Reports.Insert | adminapp/views.py:190-192 | inserting into a list sorted by decreasing quantity gives a sorted permutation of the list plus the new entry |
| Reports.SortByQty | adminapp/views.py:190-192 | a permutation of the entries (same multiset), by decreasing quantity, keeping names distinct |
| Reports.TopProducts | adminapp/views.py:190-192 | at most five distinct products, largest quantity first, each with its total quantity sold |
| Reports.TopProductsAreTheTop | adminapp/views.py:190-192 | a product sold but missing from the list means the list is full and the product sold no more than its last entry |
| Reports.SoldRows | adminapp/views.py:190-191 | one row per order line, in order, carrying the name of the line's product and the line's quantity |
| Reports.TopSellers | adminapp/views.py:190-192 | the top sellers of the shop: at most five distinct names, largest first, each the name of some order line's product, with the total quantity of the order lines under that name |
| Reports.TopSellersAreTheTop | adminapp/views.py:190-192 | the name of any order line's product is in the shop's top sellers unless the list is full and that name sold no more than its last entry |
| Reports.CheckoutNeverLowersSales | main/views.py:147-153 | with positive cart quantities, a checkout keeps the database constraints and never lowers the quantity sold under any product name |

## Left out

- Email: building and sending the welcome and code emails. Whether a send succeeded is a parameter.
- Password hashing, and `authenticate`'s check of the active flag: `PasswordMatches` compares the stored credential directly.
- The code generator (`generate_otp` in `userapp/models.py`): the generated six-digit code is a parameter. `userapp/models.py` is not part of this model.
- Clock and time zones: time is a parameter in seconds, and the calendar day is taken in one fixed zone.
- The flash messages, and the GET pages that only render a template: `view_cart`, the product listing and static pages, and the code form page.
- Django's `login` flushing a session whose stored password hash no longer matches its user: the model treats a session as belonging to another user only when it names a different user id.
- UserApp.Register: compares and stores the email as given. Django's `create_user` stores the NFKC-normalised user name, while the lookups (`userapp/views.py:26`, `userapp/views.py:103`) use the raw email. So `RegisterThenLogin` and the duplicate check hold in the source only for emails that NFKC normalisation leaves unchanged.
- A session holding only one of the two pending-login keys. The code always sets and deletes them together, so that state cannot arise from the views.
- A quantity field that is not a number (a `ValueError` in the source): the model takes the quantity as an already parsed integer, or absent.
- `AddToCart`: does not reject zero or negative quantities, because the source does not. A line can therefore end up with a quantity below one.
- `Checkout`: requires that every cart line names an existing product, which the database's foreign key guarantees. It does not model a stock lower bound, because the source has none: stock can go negative.
- `Checkout.MyOrders`: lists orders oldest first. The order table's default ordering lives in `main/models.py`, which is not part of this model.
- The order total: `cart.get_total_price()` (`main/views.py:140`, `main/views.py:167`) is a method in `main/models.py`, which is not part of this model. `CartTotal` takes it to be the sum of each line's quantity times its product's current price. `Checkout.OrderLinesTotal` and `Checkout.CheckoutOrderMatchesItsLines` (the lines sum to the order total) hold for the source only under that reading.
- Status choices: the model has the four statuses the report counts. Any further choices declared in `main/models.py` are not modelled.
- Reports.AverageOrderValue: uses exact rational division instead of the database's decimal arithmetic.
- Reports.TopProducts: breaks ties between equal quantities in insertion order; the database leaves that order unspecified.
- The dashboard's plain counts (users, products, orders) and its five most recent orders; the user and product search, the order filter, and adding a product in the back office.
- Concurrency between requests: each request is one atomic step.
- The `login_required` redirect of the storefront views (`main/views.py:59`, `main/views.py:66`, `main/views.py:100`, `main/views.py:109`, `main/views.py:125`, `main/views.py:173`, `main/views.py:184`): every modelled storefront request comes from a logged-in `user`. An anonymous request goes to the login page before the view runs.
- Absent POST fields other than the quantity: the checkout's `shipping_address` and `phone` (`main/views.py:134-135`) and the registration's `name` and `phone` (`userapp/views.py:16-17`) are taken as present strings. In the source an absent field reads as `None`, and the database rejects it with an error.
- UserApp.Register and UserApp.Login: take the registration's `email`, `password` and `confirm_password` (`userapp/views.py:14-19`) and the login's `email` and `password` (`userapp/views.py:98-99`) as present strings. In the source, a registration with both passwords absent passes the `None != None` check, and `create_user` stores an unusable password. Every later login of that account then ends in "Invalid email or password!" (`userapp/views.py:105-107`, `userapp/views.py:143-145`), so `RegisterThenLogin` does not hold for it. An absent login password likewise fails `authenticate` even for an account whose stored password is empty; the model compares `""` with `""` and accepts it.
- Deleting users or orders: the admin site and scripts can delete rows. A user deleted while their login is pending shows up only as a pending id past the end of `users`, which `Verify` answers with `PendingUserMissing` (`userapp/views.py:194-196`). Other consequences of deletions are not modelled.
- UserApp.Verify: states `r.db.users == db.users`, but Django's `login` (`userapp/views.py:183`) also saves the user's `last_login` time. On `LoggedIn` and `LoginCrashed` that column of the user row changes in the database; the model has no such column.
- The `updated_at` timestamp that every `save()` refreshes (`adminapp/views.py:162`, `main/views.py:157`). Products and orders have that column (`main/admin.py:29`, `main/admin.py:62`). "Changes that order's status only" (`AdminApp.UpdateOrderStatus`) and "no other product field changes" (`Checkout.TakeStock`) hold for the modelled columns; in the database, `updated_at` changes as well.

=== FILE: adminapp.dfy ===
/** The back office's access guard and its one write to orders: changing an
    order's status to one of the declared statuses. */
module AdminApp {
  import opened Wrappers
  import opened Catalog
  import UserApp

  /** Who is asking: nobody logged in, or a logged-in user with a staff flag. */
  datatype Viewer = Anonymous | Member(isStaff: bool)

  /** The guard's decision: redirect to login, redirect home, or run the view. */
  datatype Access = ToLogin | ToHome | Granted

  /** The guard wrapped around every back-office view. */
  function AdminRequired(v: Viewer): (r: Access)
    ensures r == ToLogin <==> v == Anonymous
    ensures r == ToHome <==> v == Member(false)
    ensures r == Granted <==> v == Member(true)
  {
    match v
    case Anonymous => ToLogin
    case Member(isStaff) => if isStaff then Granted else ToHome
  }

  /** The viewer a session stands for: its logged-in user, if that user exists. */
  function ViewerOf(db: UserApp.Db, session: UserApp.Session): (r: Viewer)
    ensures r.Member? <==> session.authUser.Some? && session.authUser.value < |db.users|
    ensures r.Member? ==> r.isStaff == db.users[session.authUser.value].isStaff
  {
    match session.authUser
    case None => Anonymous
    case Some(id) => if id < |db.users| then Member(db.users[id].isStaff) else Anonymous
  }

  /** Reads a submitted status value; only the declared status names are
      accepted, and an absent field is not one of them. */
  function ParseStatus(value: Option<string>): (r: Option<Status>)
    ensures r.Some? ==> value == Some(StatusName(r.value))
    ensures r.None? ==> forall st :: value != Some(StatusName(st))
  {
    match value
    case None => None
    case Some(v) =>
      if v == "pending" then Some(Pending)
      else if v == "confirmed" then Some(Confirmed)
      else if v == "shipped" then Some(Shipped)
      else if v == "delivered" then Some(Delivered)
      else None
  }

  /** Sets order `oid` to the submitted status. A missing order or a value
      that is not a declared status changes nothing. */
  function UpdateOrderStatus(s: Shop, oid: OrderId, value: Option<string>): (r: Shop)
    ensures r == s.(orders := r.orders)
    ensures |r.orders| == |s.orders|
    ensures forall i :: 0 <= i < |s.orders| && i != oid ==> r.orders[i] == s.orders[i]
    ensures forall st :: oid < |s.orders| && value == Some(StatusName(st)) ==>
      r.orders[oid] == s.orders[oid].(status := st)
    ensures (oid >= |s.orders| || forall st :: value != Some(StatusName(st))) ==> r == s
  {
    match ParseStatus(value)
    case None => s
    case Some(st) =>
      if oid < |s.orders| then s.(orders := s.orders[oid := s.orders[oid].(status := st)]) else s
  }

  // ------------------------------------------------------------------ lemmas

  /** Every status name is read back as that status. */
  lemma ParseStatusRoundTrip(st: Status)
    ensures ParseStatus(Some(StatusName(st))) == Some(st)
  {
  }

  /** A status update keeps the database constraints. */
  lemma UpdateOrderStatusKeepsValid(s: Shop, oid: OrderId, value: Option<string>)
    requires Valid(s)
    ensures Valid(UpdateOrderStatus(s, oid, value))
  {
  }

  /** After logging out, the back office sends the browser to the login page. */
  lemma LogoutLocksBackOffice(db: UserApp.Db, session: UserApp.Session)
    ensures AdminRequired(ViewerOf(db, UserApp.Logout(session))) == ToLogin
  {
  }

  /** The first login step alone never changes what the back office allows. */
  lemma PasswordStepGrantsNothing(db: UserApp.Db, session: UserApp.Session, email: string,
                                  password: string, code: string, now: int, sent: bool)
    requires UserApp.IsOtpCode(code)
    ensures var l := UserApp.Login(db, session, email, password, code, now, sent);
      AdminRequired(ViewerOf(l.db, l.session)) == AdminRequired(ViewerOf(db, session))
  {
  }

  /** A code check that ends in the server error leaves the browser without
      a session, so the back office sends it to the login page. */
  lemma CrashedCodeStepLocksBackOffice(db: UserApp.Db, session: UserApp.Session, code: Option<string>, now: int)
    requires UserApp.Verify(db, session, code, now).outcome.LoginCrashed?
    ensures var v := UserApp.Verify(db, session, code, now);
      AdminRequired(ViewerOf(v.db, v.session)) == ToLogin
  {
  }

  /** A completed code check opens the back office exactly to staff users. */
  lemma CodeStepGrantsStaffOnly(db: UserApp.Db, session: UserApp.Session, code: Option<string>, now: int)
    requires UserApp.Verify(db, session, code, now).outcome.LoggedIn?
    ensures var v := UserApp.Verify(db, session, code, now);
      && (AdminRequired(ViewerOf(v.db, v.session)) == Granted <==> db.users[v.outcome.userId].isStaff)
      && (AdminRequired(ViewerOf(v.db, v.session)) == ToHome <==> !db.users[v.outcome.userId].isStaff)
  {
  }
}

=== FILE: cart.dfy ===
/** The cart views of the main app: lazy cart creation, adding a product,
    removing a line and changing a line's quantity. Each is a transition
    over the shop tables for the logged-in user `user`. */
module Cart {
  import opened Wrappers
  import opened Ids
  import opened Catalog

  /** `ToCart` is the redirect back to the cart page; `NotFound` the 404
      raised for a missing product or a line outside the user's cart. */
  datatype CartOutcome = ToCart | NotFound

  datatype CartStep = CartStep(shop: Shop, outcome: CartOutcome)

  /** The quantity a form submits; the field defaults to 1 when absent. */
  function RequestedQuantity(field: Option<int>): int {
    field.GetOr(1)
  }

  /** Gives `user` a cart if they have none; nothing else changes. */
  function GetOrCreateCart(s: Shop, user: UserId): (r: Shop)
    ensures user in r.carts
    ensures forall u :: u != user ==> (u in r.carts <==> u in s.carts)
    ensures r.products == s.products && r.items == s.items && r.nextItemId == s.nextItemId
    ensures r.orders == s.orders && r.orderItems == s.orderItems
  {
    s.(carts := s.carts + {user})
  }

  /** True when the two line lists agree on every line other than `owner`'s
      line for product `p`. */
  ghost predicate SameOtherLines(a: seq<CartItem>, b: seq<CartItem>, owner: UserId, p: ProductId) {
    forall it: CartItem :: !(it.owner == owner && it.product == p) ==> (it in a <==> it in b)
  }

  /** Adds `quantity` of an active product to the user's cart: a new line
      when the product is not in the cart yet, otherwise the quantities are
      merged. The quantity's sign is not checked. */
  function AddToCart(s: Shop, user: UserId, p: ProductId, quantity: Option<int>): (r: CartStep)
    ensures r.outcome.ToCart? <==> p in s.products && s.products[p].isActive
    ensures r.outcome.NotFound? ==> r.shop == s
    ensures r.shop.products == s.products && r.shop.orders == s.orders && r.shop.orderItems == s.orderItems
    ensures r.outcome.ToCart? ==>
      && r.shop.carts == s.carts + {user}
      && FindLine(r.shop.items, user, p).Some?
      && LineQuantity(r.shop.items, user, p) == LineQuantity(s.items, user, p) + RequestedQuantity(quantity)
      && SameOtherLines(r.shop.items, s.items, user, p)
    ensures r.outcome.ToCart? && FindLine(s.items, user, p).None? ==>
      |r.shop.items| == |s.items| + 1 && r.shop.items[|s.items|].quantity == RequestedQuantity(quantity)
    ensures r.outcome.ToCart? && FindLine(s.items, user, p).Some? ==> |r.shop.items| == |s.items|
  {
    if p !in s.products || !s.products[p].isActive then CartStep(s, NotFound)
    else
      var s1 := GetOrCreateCart(s, user);
      var q := RequestedQuantity(quantity);
      match FindLine(s1.items, user, p)
      case None =>
        var line := CartItem(s1.nextItemId, user, p, q);
        var items' := s1.items + [line];
        AppendedLineFound(s1.items, line);
        CartStep(s1.(items := items', nextItemId := s1.nextItemId + 1), ToCart)
      case Some(i) =>
        var items' := s1.items[i := s1.items[i].(quantity := s1.items[i].quantity + q)];
        UpdatedLineFound(s1.items, i, items'[i]);
        CartStep(s1.(items := items'), ToCart)
  }

  /** Appending a line for a (cart, product) pair that had none makes it that
      pair's line and keeps every other line. */
  lemma AppendedLineFound(items: seq<CartItem>, line: CartItem)
    requires FindLine(items, line.owner, line.product).None?
    ensures FindLine(items + [line], line.owner, line.product) == Some(|items|)
    ensures SameOtherLines(items + [line], items, line.owner, line.product)
  {
    var items' := items + [line];
    assert items'[|items|] == line;
  }

  /** Overwriting the first line of a pair with another line of the same pair
      keeps it the pair's line and keeps every other line. */
  lemma UpdatedLineFound(items: seq<CartItem>, i: nat, line: CartItem)
    requires FindLine(items, line.owner, line.product) == Some(i)
    ensures FindLine(items[i := line], line.owner, line.product) == Some(i)
    ensures SameOtherLines(items[i := line], items, line.owner, line.product)
  {
    var items' := items[i := line];
    assert items'[i] == line;
    forall it: CartItem | !(it.owner == line.owner && it.product == line.product)
      ensures it in items' <==> it in items
    {
      if it in items' {
        var j :| 0 <= j < |items'| && items'[j] == it;
        assert j != i && items[j] == it;
      }
      if it in items {
        var j :| 0 <= j < |items| && items[j] == it;
        assert j != i && items'[j] == it;
      }
    }
  }

  /** Removing the line at `i` keeps exactly the other lines, given unique ids. */
  lemma RemoveAtKeepsOthers(items: seq<CartItem>, i: nat)
    requires i < |items|
    ensures UniqueItemIds(items) ==>
      forall it :: it in RemoveAt(items, i) <==> it in items && it.id != items[i].id
  {
    var r := RemoveAt(items, i);
    forall it | UniqueItemIds(items)
      ensures it in r <==> it in items && it.id != items[i].id
    {
      if it in r {
        var j :| 0 <= j < |r| && r[j] == it;
        if j < i { assert items[j] == it; } else { assert items[j + 1] == it; }
      }
      if it in items && it.id != items[i].id {
        var j :| 0 <= j < |items| && items[j] == it;
        if j < i { assert r[j] == it; } else { assert j != i && r[j - 1] == it; }
      }
    }
  }

  /** Deletes line `id` if it is in the user's cart; any other id is a 404. */
  function RemoveFromCart(s: Shop, user: UserId, id: ItemId): (r: CartStep)
    ensures r.outcome.ToCart? <==> exists j :: 0 <= j < |s.items| && s.items[j].id == id && s.items[j].owner == user
    ensures r.outcome.NotFound? ==> r.shop == s
    ensures r.shop == s.(items := r.shop.items)
    ensures r.outcome.ToCart? && UniqueItemIds(s.items) ==>
      forall it :: it in r.shop.items <==> it in s.items && it.id != id
  {
    match FindItem(s.items, id, user)
    case None => CartStep(s, NotFound)
    case Some(i) =>
      RemoveAtKeepsOthers(s.items, i);
      CartStep(s.(items := RemoveAt(s.items, i)), ToCart)
  }

  /** Sets line `id` of the user's cart to the requested quantity, or
      deletes it when that quantity is zero or negative. */
  function UpdateCartItem(s: Shop, user: UserId, id: ItemId, quantity: Option<int>): (r: CartStep)
    ensures r.outcome.ToCart? <==> exists j :: 0 <= j < |s.items| && s.items[j].id == id && s.items[j].owner == user
    ensures r.outcome.NotFound? ==> r.shop == s
    ensures r.shop == s.(items := r.shop.items)
    ensures r.outcome.ToCart? && RequestedQuantity(quantity) > 0 && UniqueItemIds(s.items) ==>
      && |r.shop.items| == |s.items|
      && (forall j :: 0 <= j < |s.items| && s.items[j].id != id ==> r.shop.items[j] == s.items[j])
      && (forall j :: 0 <= j < |s.items| && s.items[j].id == id ==>
            r.shop.items[j] == s.items[j].(quantity := RequestedQuantity(quantity)))
    ensures r.outcome.ToCart? && RequestedQuantity(quantity) <= 0 && UniqueItemIds(s.items) ==>
      forall it :: it in r.shop.items <==> it in s.items && it.id != id
  {
    match FindItem(s.items, id, user)
    case None => CartStep(s, NotFound)
    case Some(i) =>
      var q := RequestedQuantity(quantity);
      if q > 0 then
        CartStep(s.(items := s.items[i := s.items[i].(quantity := q)]), ToCart)
      else
        RemoveAtKeepsOthers(s.items, i);
        CartStep(s.(items := RemoveAt(s.items, i)), ToCart)
  }

  // -------------------------------------------------------------- invariants

  /** Giving `user` a cart and appending a line with the next id, for an
      existing product the cart had no line for, keeps the database
      constraints. */
  lemma AppendLineKeepsValid(s: Shop, user: UserId, p: ProductId, q: int)
    requires Valid(s) && p in s.products
    requires FindLine(s.items, user, p).None?
    ensures Valid(s.(carts := s.carts + {user},
                     items := s.items + [CartItem(s.nextItemId, user, p, q)],
                     nextItemId := s.nextItemId + 1))
  {
    var line := CartItem(s.nextItemId, user, p, q);
    var r := s.items + [line];
    forall a, b | 0 <= a < b < |r|
      ensures r[a].id != r[b].id
      ensures r[a].owner != r[b].owner || r[a].product != r[b].product
    {
      assert r[a] == s.items[a];
      if b < |s.items| {
        assert r[b] == s.items[b];
      } else {
        assert r[b] == line;
      }
    }
    forall a | 0 <= a < |r|
      ensures r[a].id < s.nextItemId + 1 && r[a].owner in s.carts + {user} && r[a].product in s.products
    {
      if a < |s.items| { assert r[a] == s.items[a]; } else { assert r[a] == line; }
    }
  }

  /** The shop after adding a product the cart has no line for yet. */
  lemma AddToCartNewLine(s: Shop, user: UserId, p: ProductId, quantity: Option<int>)
    requires p in s.products && s.products[p].isActive
    requires FindLine(s.items, user, p).None?
    ensures AddToCart(s, user, p, quantity).shop
      == s.(carts := s.carts + {user},
            items := s.items + [CartItem(s.nextItemId, user, p, RequestedQuantity(quantity))],
            nextItemId := s.nextItemId + 1)
  {
  }

  /** The shop after adding a product the cart already has line `i` for. */
  lemma AddToCartMergedLine(s: Shop, user: UserId, p: ProductId, quantity: Option<int>, i: nat)
    requires p in s.products && s.products[p].isActive
    requires FindLine(s.items, user, p) == Some(i)
    ensures AddToCart(s, user, p, quantity).shop
      == s.(carts := s.carts + {user},
            items := s.items[i := s.items[i].(quantity := s.items[i].quantity + RequestedQuantity(quantity))])
  {
  }

  /** Adding to the cart keeps the database constraints: a fresh line gets a
      fresh id and is the only line of its product in the cart. */
  lemma AddToCartKeepsValid(s: Shop, user: UserId, p: ProductId, quantity: Option<int>)
    requires Valid(s)
    ensures Valid(AddToCart(s, user, p, quantity).shop)
  {
    if p in s.products && s.products[p].isActive {
      match FindLine(s.items, user, p)
      case None => NewLineKeepsValid(s, user, p, quantity);
      case Some(i) => MergedLineKeepsValid(s, user, p, quantity, i);
    }
  }

  /** AddToCartKeepsValid when the product gets a fresh line. */
  lemma NewLineKeepsValid(s: Shop, user: UserId, p: ProductId, quantity: Option<int>)
    requires Valid(s) && p in s.products && s.products[p].isActive
    requires FindLine(s.items, user, p).None?
    ensures Valid(AddToCart(s, user, p, quantity).shop)
  {
    AddToCartNewLine(s, user, p, quantity);
    AppendLineKeepsValid(s, user, p, RequestedQuantity(quantity));
  }

  /** AddToCartKeepsValid when the product's line `i` grows. */
  lemma MergedLineKeepsValid(s: Shop, user: UserId, p: ProductId, quantity: Option<int>, i: nat)
    requires Valid(s) && p in s.products && s.products[p].isActive
    requires FindLine(s.items, user, p) == Some(i)
    ensures Valid(AddToCart(s, user, p, quantity).shop)
  {
    var t := s.(carts := s.carts + {user},
                items := s.items[i := s.items[i].(quantity := s.items[i].quantity + RequestedQuantity(quantity))]);
    SetQuantityKeepsValid(s, s.carts + {user}, i, s.items[i].quantity + RequestedQuantity(quantity));
    assert Valid(t);
    AddToCartMergedLine(s, user, p, quantity, i);
  }

  /** Dropping a line keeps the database constraints. */
  lemma RemoveAtKeepsValid(s: Shop, i: nat)
    requires Valid(s) && i < |s.items|
    ensures Valid(s.(items := RemoveAt(s.items, i)))
  {
    var r := RemoveAt(s.items, i);
    forall a, b | 0 <= a < b < |r|
      ensures r[a].id != r[b].id
      ensures r[a].owner != r[b].owner || r[a].product != r[b].product
    {
      var a' := if a < i then a else a + 1;
      var b' := if b < i then b else b + 1;
      assert r[a] == s.items[a'] && r[b] == s.items[b'] && a' < b';
    }
    forall a | 0 <= a < |r|
      ensures r[a].id < s.nextItemId && r[a].owner in s.carts && r[a].product in s.products
    {
      if a < i { assert r[a] == s.items[a]; } else { assert r[a] == s.items[a + 1]; }
    }
  }

  /** Changing the quantity of line `i`, possibly while adding carts, keeps
      the database constraints. */
  lemma SetQuantityKeepsValid(s: Shop, carts: set<UserId>, i: nat, q: int)
    requires Valid(s) && s.carts <= carts && i < |s.items|
    ensures Valid(s.(carts := carts, items := s.items[i := s.items[i].(quantity := q)]))
  {
    var r := s.items[i := s.items[i].(quantity := q)];
    assert forall a :: 0 <= a < |r| ==>
      r[a].id == s.items[a].id && r[a].owner == s.items[a].owner && r[a].product == s.items[a].product;
  }

  /** Removing a line keeps the database constraints. */
  lemma RemoveFromCartKeepsValid(s: Shop, user: UserId, id: ItemId)
    requires Valid(s)
    ensures Valid(RemoveFromCart(s, user, id).shop)
  {
    match FindItem(s.items, id, user)
    case None =>
    case Some(i) => RemoveAtKeepsValid(s, i);
  }

  /** Changing a line's quantity keeps the database constraints. */
  lemma UpdateCartItemKeepsValid(s: Shop, user: UserId, id: ItemId, quantity: Option<int>)
    requires Valid(s)
    ensures Valid(UpdateCartItem(s, user, id, quantity).shop)
  {
    match FindItem(s.items, id, user)
    case None =>
    case Some(i) =>
      if RequestedQuantity(quantity) > 0 {
        SetQuantityKeepsValid(s, s.carts, i, RequestedQuantity(quantity));
      } else {
        RemoveAtKeepsValid(s, i);
      }
  }

  /** A quantity update never leaves a line with fewer than one unit: a
      non-positive request deletes the line instead. */
  lemma UpdateCartItemKeepsQuantitiesPositive(s: Shop, user: UserId, id: ItemId, quantity: Option<int>)
    requires PositiveQuantities(s.items)
    ensures PositiveQuantities(UpdateCartItem(s, user, id, quantity).shop.items)
  {
  }

  /** Adding keeps every line positive only when the added quantity is
      positive; the view itself does not check it. */
  lemma AddToCartKeepsQuantitiesPositive(s: Shop, user: UserId, p: ProductId, quantity: Option<int>)
    requires PositiveQuantities(s.items)
    requires RequestedQuantity(quantity) >= 1
    ensures PositiveQuantities(AddToCart(s, user, p, quantity).shop.items)
  {
  }

  /** A line that is not in the requesting user's cart can be neither
      removed nor updated by that user. */
  lemma ForeignLinesUntouchable(s: Shop, user: UserId, id: ItemId, quantity: Option<int>)
    requires forall j :: 0 <= j < |s.items| && s.items[j].id == id ==> s.items[j].owner != user
    ensures RemoveFromCart(s, user, id) == CartStep(s, NotFound)
    ensures UpdateCartItem(s, user, id, quantity) == CartStep(s, NotFound)
  {
  }
}

=== FILE: catalog.dfy ===
/** The storefront's shop tables: products, carts and their lines, orders
    and their lines. Money is an integer number of the smallest currency
    unit; time is an integer number of seconds. */
module Catalog {
  import opened Wrappers
  import opened Ids

  type ProductId = nat
  type ItemId = nat
  type OrderId = nat

  /** A catalogue entry. Only stock ever changes here, at checkout. */
  datatype Product = Product(name: string, price: int, stock: int, isActive: bool)

  /** One line of a user's cart. The cart itself is identified by its owner. */
  datatype CartItem = CartItem(id: ItemId, owner: UserId, product: ProductId, quantity: int)

  /** The declared order statuses. */
  datatype Status = Pending | Confirmed | Shipped | Delivered

  /** A placed order. Its id is its position in the order table. */
  datatype Order = Order(owner: UserId, totalPrice: int, shippingAddress: string,
                         phone: string, status: Status, createdAt: int)

  /** One line of an order, with the unit price copied at checkout. */
  datatype OrderItem = OrderItem(order: OrderId, product: ProductId, quantity: int, price: int)

  /** The whole shop: `carts` holds the users that have a cart, `items` the
      lines of every cart in creation order, `nextItemId` the next line id. */
  datatype Shop = Shop(products: map<ProductId, Product>, carts: set<UserId>,
                       items: seq<CartItem>, nextItemId: ItemId,
                       orders: seq<Order>, orderItems: seq<OrderItem>)

  /** The string the status column stores for each status. */
  function StatusName(st: Status): string {
    match st
    case Pending => "pending"
    case Confirmed => "confirmed"
    case Shipped => "shipped"
    case Delivered => "delivered"
  }

  // --------------------------------------------------------------- integrity

  predicate UniqueItemIds(items: seq<CartItem>) {
    forall i, j :: 0 <= i < j < |items| ==> items[i].id != items[j].id
  }

  /** At most one line per (cart, product) pair. */
  predicate OneLinePerProduct(items: seq<CartItem>) {
    forall i, j :: 0 <= i < j < |items| ==>
      items[i].owner != items[j].owner || items[i].product != items[j].product
  }

  /** The constraints the database keeps: line ids are unique and below the
      next id, lines belong to existing carts and products, one line per
      product in a cart, and order lines refer to existing orders and
      products. */
  predicate Valid(s: Shop) {
    && UniqueItemIds(s.items)
    && OneLinePerProduct(s.items)
    && (forall i :: 0 <= i < |s.items| ==> s.items[i].id < s.nextItemId)
    && (forall i :: 0 <= i < |s.items| ==> s.items[i].owner in s.carts && s.items[i].product in s.products)
    && (forall k :: 0 <= k < |s.orderItems| ==>
          s.orderItems[k].order < |s.orders| && s.orderItems[k].product in s.products)
  }

  /** Every cart line has a quantity of at least one. */
  predicate PositiveQuantities(items: seq<CartItem>) {
    forall i :: 0 <= i < |items| ==> items[i].quantity >= 1
  }

  // ------------------------------------------------------------- cart lines

  /** The lines of `owner`'s cart, in order. */
  function LinesOf(items: seq<CartItem>, owner: UserId): (r: seq<CartItem>)
    ensures |r| <= |items|
    ensures forall it :: it in r <==> it in items && it.owner == owner
  {
    if items == [] then []
    else if items[0].owner == owner then [items[0]] + LinesOf(items[1..], owner)
    else LinesOf(items[1..], owner)
  }

  /** The lines of every cart but `owner`'s, in order. */
  function LinesNotOf(items: seq<CartItem>, owner: UserId): (r: seq<CartItem>)
    ensures |r| <= |items|
    ensures forall it :: it in r <==> it in items && it.owner != owner
  {
    if items == [] then []
    else if items[0].owner != owner then [items[0]] + LinesNotOf(items[1..], owner)
    else LinesNotOf(items[1..], owner)
  }

  /** Position of `owner`'s line for product `p`, if there is one. */
  function FindLine(items: seq<CartItem>, owner: UserId, p: ProductId): (r: Option<nat>)
    ensures r.Some? ==> r.value < |items| && items[r.value].owner == owner && items[r.value].product == p
    ensures r.Some? ==> forall j :: 0 <= j < r.value ==> !(items[j].owner == owner && items[j].product == p)
    ensures r.None? <==> forall j :: 0 <= j < |items| ==> !(items[j].owner == owner && items[j].product == p)
  {
    if items == [] then None
    else if items[0].owner == owner && items[0].product == p then Some(0)
    else
      match FindLine(items[1..], owner, p)
      case None => None
      case Some(i) => Some(i + 1)
  }

  /** Position of the line with id `id` in `owner`'s cart, if there is one. */
  function FindItem(items: seq<CartItem>, id: ItemId, owner: UserId): (r: Option<nat>)
    ensures r.Some? ==> r.value < |items| && items[r.value].id == id && items[r.value].owner == owner
    ensures r.None? <==> forall j :: 0 <= j < |items| ==> !(items[j].id == id && items[j].owner == owner)
  {
    if items == [] then None
    else if items[0].id == id && items[0].owner == owner then Some(0)
    else
      match FindItem(items[1..], id, owner)
      case None => None
      case Some(i) => Some(i + 1)
  }

  /** The quantity `owner` has of product `p` in the cart; 0 when there is no line. */
  function LineQuantity(items: seq<CartItem>, owner: UserId, p: ProductId): int {
    match FindLine(items, owner, p)
    case None => 0
    case Some(i) => items[i].quantity
  }

  /** Drops the line at position `i`. */
  function RemoveAt(items: seq<CartItem>, i: nat): (r: seq<CartItem>)
    requires i < |items|
    ensures |r| == |items| - 1
    ensures forall j :: 0 <= j < i ==> r[j] == items[j]
    ensures forall j :: i <= j < |r| ==> r[j] == items[j + 1]
  {
    items[..i] + items[i + 1..]
  }

  // ----------------------------------------------------------------- totals

  /** Total quantity of product `p` over `lines`. */
  function QtyOfProduct(lines: seq<CartItem>, p: ProductId): int {
    if lines == [] then 0
    else (if lines[0].product == p then lines[0].quantity else 0) + QtyOfProduct(lines[1..], p)
  }

  predicate ProductsKnown(products: map<ProductId, Product>, lines: seq<CartItem>) {
    forall i :: 0 <= i < |lines| ==> lines[i].product in products
  }

  /** Sum of price times quantity over the lines, at the current prices. */
  function CartTotal(products: map<ProductId, Product>, lines: seq<CartItem>): int
    requires ProductsKnown(products, lines)
  {
    if lines == [] then 0
    else products[lines[0].product].price * lines[0].quantity + CartTotal(products, lines[1..])
  }

  /** Sum of unit price times quantity over order lines. */
  function ItemsTotal(ois: seq<OrderItem>): int {
    if ois == [] then 0 else ois[0].price * ois[0].quantity + ItemsTotal(ois[1..])
  }

  /** The lines of order `oid`, in order. */
  function ItemsOfOrder(ois: seq<OrderItem>, oid: OrderId): (r: seq<OrderItem>)
    ensures forall x :: x in r <==> x in ois && x.order == oid
  {
    if ois == [] then []
    else if ois[0].order == oid then [ois[0]] + ItemsOfOrder(ois[1..], oid)
    else ItemsOfOrder(ois[1..], oid)
  }
}

=== FILE: checkout.dfy ===
/** Checkout and the order pages of the main app: the user's cart lines
    become one order plus one order line per cart line, stock is taken out
    and the cart is emptied. */
module Checkout {
  import opened Wrappers
  import opened Ids
  import opened Catalog
  import Cart

  /** `EmptyCart` redirects to the cart page, `Form` renders the checkout
      form with the cart total, `Placed` redirects to the order's
      confirmation page. */
  datatype CheckoutOutcome = EmptyCart | Form(total: int) | Placed(orderId: OrderId)

  datatype CheckoutStep = CheckoutStep(shop: Shop, outcome: CheckoutOutcome)

  /** Every cart line names an existing product (a foreign key). */
  predicate LinesReferToProducts(s: Shop) {
    ProductsKnown(s.products, s.items)
  }

  lemma LinesOfKnown(products: map<ProductId, Product>, items: seq<CartItem>, user: UserId)
    requires ProductsKnown(products, items)
    ensures ProductsKnown(products, LinesOf(items, user))
  {
    var lines := LinesOf(items, user);
    forall k | 0 <= k < |lines| ensures lines[k].product in products {
      assert lines[k] in items;
    }
  }

  /** Stock after each line's quantity has been taken out of its product,
      line by line, with no lower bound. */
  function TakeStock(products: map<ProductId, Product>, lines: seq<CartItem>): (r: map<ProductId, Product>)
    requires ProductsKnown(products, lines)
    ensures r.Keys == products.Keys
    ensures forall p :: p in products ==>
      r[p] == products[p].(stock := products[p].stock - QtyOfProduct(lines, p))
    decreases |lines|
  {
    if lines == [] then products
    else
      var p := lines[0].product;
      TakeStock(products[p := products[p].(stock := products[p].stock - lines[0].quantity)], lines[1..])
  }

  /** The order lines for `lines`, each with the product's current price. */
  function OrderLines(oid: OrderId, products: map<ProductId, Product>, lines: seq<CartItem>): (r: seq<OrderItem>)
    requires ProductsKnown(products, lines)
    ensures |r| == |lines|
    ensures forall k :: 0 <= k < |lines| ==>
      r[k] == OrderItem(oid, lines[k].product, lines[k].quantity, products[lines[k].product].price)
    decreases |lines|
  {
    if lines == [] then []
    else
      [OrderItem(oid, lines[0].product, lines[0].quantity, products[lines[0].product].price)]
        + OrderLines(oid, products, lines[1..])
  }

  /** The checkout page (GET): the cart is created if need be, an empty cart
      sends the user back to it, otherwise the form shows the cart total. */
  function CheckoutForm(s: Shop, user: UserId): (r: CheckoutStep)
    requires LinesReferToProducts(s)
    ensures r.shop == Cart.GetOrCreateCart(s, user)
    ensures r.outcome.EmptyCart? <==> forall it :: it in s.items ==> it.owner != user
    ensures r.outcome.Form? ==> r.outcome.total == CartTotal(s.products, LinesOf(s.items, user))
  {
    var lines := LinesOf(s.items, user);
    LinesOfKnown(s.products, s.items, user);
    if lines == [] then CheckoutStep(Cart.GetOrCreateCart(s, user), EmptyCart)
    else
      assert lines[0] in s.items;
      CheckoutStep(Cart.GetOrCreateCart(s, user), Form(CartTotal(s.products, lines)))
  }

  /** Placing the order (POST). The order total is the cart total at this
      moment; each cart line is copied into an order line with the
      product's current price and taken out of stock; the cart is emptied
      but kept. */
  function Checkout(s: Shop, user: UserId, address: string, phone: string, now: int): (r: CheckoutStep)
    requires LinesReferToProducts(s)
    ensures r.shop.carts == s.carts + {user}
    ensures r.outcome.EmptyCart? <==> forall it :: it in s.items ==> it.owner != user
    ensures r.outcome.EmptyCart? ==> r.shop == Cart.GetOrCreateCart(s, user)
    ensures !r.outcome.EmptyCart? ==>
      var lines := LinesOf(s.items, user);
      var oid := |s.orders|;
      && ProductsKnown(s.products, lines)
      && r.outcome == Placed(oid)
      && r.shop.orders == s.orders + [Order(user, CartTotal(s.products, lines), address, phone, Pending, now)]
      && r.shop.orderItems == s.orderItems + OrderLines(oid, s.products, lines)
      && r.shop.products.Keys == s.products.Keys
      && (forall p :: p in s.products ==>
            r.shop.products[p] == s.products[p].(stock := s.products[p].stock - QtyOfProduct(lines, p)))
      && (forall it :: it in r.shop.items ==> it.owner != user)
      && (forall it: CartItem :: it.owner != user ==> (it in r.shop.items <==> it in s.items))
      && r.shop.nextItemId == s.nextItemId
  {
    var s1 := Cart.GetOrCreateCart(s, user);
    var lines := LinesOf(s.items, user);
    LinesOfKnown(s.products, s.items, user);
    if lines == [] then CheckoutStep(s1, EmptyCart)
    else
      assert lines[0] in s.items;
      var oid := |s.orders|;
      var order := Order(user, CartTotal(s.products, lines), address, phone, Pending, now);
      var newLines := OrderLines(oid, s.products, lines);
      CheckoutStep(s1.(orders := s.orders + [order],
                       orderItems := s.orderItems + newLines,
                       products := TakeStock(s.products, lines),
                       items := LinesNotOf(s.items, user)),
                   Placed(oid))
  }

  /** The confirmation page of order `oid`: only its owner sees it, with its
      lines. */
  function OrderConfirmation(s: Shop, user: UserId, oid: OrderId): (r: Option<(Order, seq<OrderItem>)>)
    ensures r.Some? <==> oid < |s.orders| && s.orders[oid].owner == user
    ensures r.Some? ==> r.value.0 == s.orders[oid]
    ensures r.Some? ==> forall x :: x in r.value.1 <==> x in s.orderItems && x.order == oid
  {
    if oid < |s.orders| && s.orders[oid].owner == user then Some((s.orders[oid], ItemsOfOrder(s.orderItems, oid)))
    else None
  }

  /** Ids of the user's orders, oldest first. */
  function MyOrders(orders: seq<Order>, user: UserId): (r: seq<OrderId>)
    ensures forall id: OrderId :: id in r <==> id < |orders| && orders[id].owner == user
    ensures forall i, j :: 0 <= i < j < |r| ==> r[i] < r[j]
  {
    if orders == [] then []
    else
      var last := |orders| - 1;
      var earlier := MyOrders(orders[..last], user);
      assert forall i :: 0 <= i < |earlier| ==> earlier[i] < last by {
        forall i | 0 <= i < |earlier| ensures earlier[i] < last {
          assert earlier[i] in earlier;
        }
      }
      earlier + (if orders[last].owner == user then [last] else [])
  }

  // ------------------------------------------------------------------ lemmas

  /** The order lines of a cart add up to the cart total. */
  lemma {:induction false} OrderLinesTotal(oid: OrderId, products: map<ProductId, Product>, lines: seq<CartItem>)
    requires ProductsKnown(products, lines)
    ensures ItemsTotal(OrderLines(oid, products, lines)) == CartTotal(products, lines)
    decreases |lines|
  {
    if lines != [] {
      OrderLinesTotal(oid, products, lines[1..]);
      var ol := OrderLines(oid, products, lines);
      assert ol[1..] == OrderLines(oid, products, lines[1..]);
    }
  }

  lemma {:induction false} ItemsOfOrderAppend(a: seq<OrderItem>, b: seq<OrderItem>, oid: OrderId)
    ensures ItemsOfOrder(a + b, oid) == ItemsOfOrder(a, oid) + ItemsOfOrder(b, oid)
    decreases |a|
  {
    if a != [] {
      assert (a + b)[1..] == a[1..] + b;
      ItemsOfOrderAppend(a[1..], b, oid);
    } else {
      assert a + b == b;
    }
  }

  lemma {:induction false} ItemsOfOrderAll(a: seq<OrderItem>, oid: OrderId)
    requires forall k :: 0 <= k < |a| ==> a[k].order == oid
    ensures ItemsOfOrder(a, oid) == a
    decreases |a|
  {
    if a != [] {
      ItemsOfOrderAll(a[1..], oid);
    }
  }

  /** Order lines of orders placed before `oid` are not lines of `oid`. */
  lemma ItemsOfOrderNone(a: seq<OrderItem>, oid: OrderId)
    requires forall k :: 0 <= k < |a| ==> a[k].order < oid
    ensures ItemsOfOrder(a, oid) == []
  {
  }

  /** Without duplicates, a cart's lines stay free of duplicates when
      restricted to one user. */
  lemma {:induction false} LinesOfOnePerProduct(items: seq<CartItem>, user: UserId)
    requires OneLinePerProduct(items)
    ensures OneLinePerProduct(LinesOf(items, user))
    ensures forall it :: it in LinesOf(items, user) ==> it.owner == user
    decreases |items|
  {
    if items != [] {
      TailKeepsOneLinePerProduct(items);
      LinesOfOnePerProduct(items[1..], user);
      var rest := LinesOf(items[1..], user);
      forall it | it in rest
        ensures it.owner != items[0].owner || it.product != items[0].product
      {
        var j :| 0 <= j < |items[1..]| && items[1..][j] == it;
        assert items[j + 1] == it;
      }
      if items[0].owner == user {
        ConsKeepsOneLinePerProduct(items[0], rest);
      }
    }
  }

  /** The tail of a list with one line per product keeps that property. */
  lemma TailKeepsOneLinePerProduct(items: seq<CartItem>)
    requires items != [] && OneLinePerProduct(items)
    ensures OneLinePerProduct(items[1..])
  {
    forall i, j | 0 <= i < j < |items[1..]|
      ensures items[1..][i].owner != items[1..][j].owner || items[1..][i].product != items[1..][j].product
    {
      assert items[1..][i] == items[i + 1] && items[1..][j] == items[j + 1];
    }
  }

  /** A line whose (cart, product) pair no other line has can be put in
      front without breaking one line per product. */
  lemma ConsKeepsOneLinePerProduct(x: CartItem, rest: seq<CartItem>)
    requires OneLinePerProduct(rest)
    requires forall it :: it in rest ==> it.owner != x.owner || it.product != x.product
    ensures OneLinePerProduct([x] + rest)
  {
    var r := [x] + rest;
    forall i, j | 0 <= i < j < |r|
      ensures r[i].owner != r[j].owner || r[i].product != r[j].product
    {
      assert r[j] == rest[j - 1] && rest[j - 1] in rest;
      if i > 0 {
        assert r[i] == rest[i - 1];
      }
    }
  }

  /** In a list holding one line per product, a product's total quantity is
      the quantity of its line, and zero when it has none. */
  lemma {:induction false} QtyOfSingleLine(lines: seq<CartItem>, p: ProductId)
    requires forall i, j :: 0 <= i < j < |lines| ==> lines[i].product != lines[j].product
    ensures forall k :: 0 <= k < |lines| && lines[k].product == p ==> QtyOfProduct(lines, p) == lines[k].quantity
    ensures (forall k :: 0 <= k < |lines| ==> lines[k].product != p) ==> QtyOfProduct(lines, p) == 0
    decreases |lines|
  {
    if lines != [] {
      QtyOfSingleLine(lines[1..], p);
      if lines[0].product == p {
        assert forall k :: 0 <= k < |lines[1..]| ==> lines[1..][k].product != p;
      } else {
        forall k | 0 <= k < |lines| && lines[k].product == p
          ensures QtyOfProduct(lines, p) == lines[k].quantity
        {
          assert lines[1..][k - 1] == lines[k];
        }
      }
    }
  }

  /** With one line per product in each cart, the quantity of product `p`
      in a user's cart is the quantity of its line, and zero without one. */
  lemma CartQtyIsLineQty(items: seq<CartItem>, user: UserId, p: ProductId)
    requires OneLinePerProduct(items)
    ensures forall it :: it in items && it.owner == user && it.product == p ==>
      QtyOfProduct(LinesOf(items, user), p) == it.quantity
    ensures (forall it :: it in items && it.owner == user ==> it.product != p) ==>
      QtyOfProduct(LinesOf(items, user), p) == 0
  {
    var lines := LinesOf(items, user);
    LinesOfOnePerProduct(items, user);
    forall i, j | 0 <= i < j < |lines| ensures lines[i].product != lines[j].product {
      assert lines[i] in lines && lines[j] in lines;
    }
    QtyOfSingleLine(lines, p);
    forall it | it in items && it.owner == user && it.product == p
      ensures QtyOfProduct(lines, p) == it.quantity
    {
      assert it in lines;
      var k :| 0 <= k < |lines| && lines[k] == it;
    }
    if forall it :: it in items && it.owner == user ==> it.product != p {
      forall k | 0 <= k < |lines| ensures lines[k].product != p {
        assert lines[k] in lines;
      }
    }
  }

  /** After a checkout, the stock of every product in the cart went down by
      the quantity of its line, and every other product kept its stock. */
  lemma CheckoutTakesEachLineOnce(s: Shop, user: UserId, address: string, phone: string, now: int, p: ProductId)
    requires Valid(s)
    requires p in s.products
    ensures var r := Checkout(s, user, address, phone, now);
      && (forall it :: it in s.items && it.owner == user && it.product == p ==>
            r.shop.products[p].stock == s.products[p].stock - it.quantity)
      && ((forall it :: it in s.items && it.owner == user ==> it.product != p) ==>
            r.shop.products[p] == s.products[p])
  {
    var r := Checkout(s, user, address, phone, now);
    var lines := LinesOf(s.items, user);
    CartQtyIsLineQty(s.items, user, p);
    if r.outcome.EmptyCart? {
      assert r.shop.products == s.products;
    } else {
      assert r.shop.products[p].stock == s.products[p].stock - QtyOfProduct(lines, p);
      assert r.shop.products[p] == s.products[p].(stock := s.products[p].stock - QtyOfProduct(lines, p));
    }
  }

  /** A placed order's lines are appended after all earlier order lines. */
  lemma CheckoutAppendsOrderLines(s: Shop, user: UserId, address: string, phone: string, now: int)
    requires LinesReferToProducts(s)
    requires Checkout(s, user, address, phone, now).outcome.Placed?
    ensures ProductsKnown(s.products, LinesOf(s.items, user))
    ensures Checkout(s, user, address, phone, now).shop.orderItems
      == s.orderItems + OrderLines(|s.orders|, s.products, LinesOf(s.items, user))
  {
    LinesOfKnown(s.products, s.items, user);
  }

  /** Appending lines that all belong to a new order, after lines of older
      orders only, makes them exactly the new order's lines. */
  lemma ItemsOfNewOrder(older: seq<OrderItem>, added: seq<OrderItem>, oid: OrderId)
    requires forall k :: 0 <= k < |older| ==> older[k].order < oid
    requires forall k :: 0 <= k < |added| ==> added[k].order == oid
    ensures ItemsOfOrder(older + added, oid) == added
  {
    ItemsOfOrderAppend(older, added, oid);
    ItemsOfOrderNone(older, oid);
    ItemsOfOrderAll(added, oid);
  }

  /** The placed order's lines, as stored, are exactly the copied cart lines,
      and they add up to the order's total; its owner can open it. */
  lemma CheckoutOrderMatchesItsLines(s: Shop, user: UserId, address: string, phone: string, now: int)
    requires Valid(s)
    requires Checkout(s, user, address, phone, now).outcome.Placed?
    ensures var r := Checkout(s, user, address, phone, now);
      var oid := r.outcome.orderId;
      var lines := LinesOf(s.items, user);
      && ProductsKnown(s.products, lines)
      && ItemsOfOrder(r.shop.orderItems, oid) == OrderLines(oid, s.products, lines)
      && ItemsTotal(ItemsOfOrder(r.shop.orderItems, oid)) == r.shop.orders[oid].totalPrice
      && OrderConfirmation(r.shop, user, oid).Some?
      && OrderConfirmation(r.shop, user, oid).value.0 == r.shop.orders[oid]
  {
    var oid := |s.orders|;
    var lines := LinesOf(s.items, user);
    CheckoutAppendsOrderLines(s, user, address, phone, now);
    ItemsOfNewOrder(s.orderItems, OrderLines(oid, s.products, lines), oid);
    OrderLinesTotal(oid, s.products, lines);
  }

  /** The total the checkout form shows is the total of the order that
      submitting the form places, and an empty cart is refused by both. */
  lemma CheckoutFormShowsOrderTotal(s: Shop, user: UserId, address: string, phone: string, now: int)
    requires LinesReferToProducts(s)
    ensures var f := CheckoutForm(s, user).outcome;
      var r := Checkout(s, user, address, phone, now);
      && (f.EmptyCart? <==> r.outcome.EmptyCart?)
      && (f.Form? ==> r.outcome.Placed? && r.shop.orders[r.outcome.orderId].totalPrice == f.total)
  {
  }

  /** A checkout adds the new order to the end of its owner's order list and
      leaves every other user's list as it was. */
  lemma CheckoutExtendsMyOrders(s: Shop, user: UserId, address: string, phone: string, now: int, other: UserId)
    requires LinesReferToProducts(s)
    requires Checkout(s, user, address, phone, now).outcome.Placed?
    requires other != user
    ensures var r := Checkout(s, user, address, phone, now);
      && MyOrders(r.shop.orders, user) == MyOrders(s.orders, user) + [|s.orders|]
      && MyOrders(r.shop.orders, other) == MyOrders(s.orders, other)
  {
    var r := Checkout(s, user, address, phone, now);
    assert r.shop.orders[..|s.orders|] == s.orders;
  }

  /** Dropping one user's lines keeps line ids unique and one line per
      product in every remaining cart. */
  lemma {:induction false} LinesNotOfKeepsUnique(items: seq<CartItem>, user: UserId)
    requires UniqueItemIds(items) && OneLinePerProduct(items)
    ensures UniqueItemIds(LinesNotOf(items, user)) && OneLinePerProduct(LinesNotOf(items, user))
    decreases |items|
  {
    if items != [] {
      TailKeepsUnique(items);
      LinesNotOfKeepsUnique(items[1..], user);
      var rest := LinesNotOf(items[1..], user);
      forall it | it in rest
        ensures it.id != items[0].id
        ensures it.owner != items[0].owner || it.product != items[0].product
      {
        var j :| 0 <= j < |items[1..]| && items[1..][j] == it;
        assert items[j + 1] == it;
      }
      if items[0].owner != user {
        ConsKeepsUnique(items[0], rest);
      }
    }
  }

  /** The tail of a list with unique ids and one line per product keeps both. */
  lemma TailKeepsUnique(items: seq<CartItem>)
    requires items != []
    requires UniqueItemIds(items) && OneLinePerProduct(items)
    ensures UniqueItemIds(items[1..]) && OneLinePerProduct(items[1..])
  {
    forall i, j | 0 <= i < j < |items[1..]|
      ensures items[1..][i].id != items[1..][j].id
      ensures items[1..][i].owner != items[1..][j].owner || items[1..][i].product != items[1..][j].product
    {
      assert items[1..][i] == items[i + 1] && items[1..][j] == items[j + 1];
    }
  }

  /** A line whose id and (cart, product) pair no other line has can be
      put in front without breaking either constraint. */
  lemma ConsKeepsUnique(x: CartItem, rest: seq<CartItem>)
    requires UniqueItemIds(rest) && OneLinePerProduct(rest)
    requires forall it :: it in rest ==> it.id != x.id && (it.owner != x.owner || it.product != x.product)
    ensures UniqueItemIds([x] + rest) && OneLinePerProduct([x] + rest)
  {
    var r := [x] + rest;
    forall i, j | 0 <= i < j < |r|
      ensures r[i].id != r[j].id
      ensures r[i].owner != r[j].owner || r[i].product != r[j].product
    {
      assert r[j] == rest[j - 1] && rest[j - 1] in rest;
      if i > 0 {
        assert r[i] == rest[i - 1];
      }
    }
  }

  /** Checkout keeps the database constraints. */
  lemma CheckoutKeepsValid(s: Shop, user: UserId, address: string, phone: string, now: int)
    requires Valid(s)
    ensures Valid(Checkout(s, user, address, phone, now).shop)
  {
    var r := Checkout(s, user, address, phone, now).shop;
    if Checkout(s, user, address, phone, now).outcome.Placed? {
      LinesNotOfKeepsUnique(s.items, user);
      assert r.items == LinesNotOf(s.items, user);
      forall i | 0 <= i < |r.items|
        ensures r.items[i].id < r.nextItemId
        ensures r.items[i].owner in r.carts && r.items[i].product in r.products
      {
        assert r.items[i] in s.items;
      }
      forall k | 0 <= k < |r.orderItems|
        ensures r.orderItems[k].order < |r.orders| && r.orderItems[k].product in r.products
      {
        if k < |s.orderItems| {
          assert r.orderItems[k] == s.orderItems[k];
        } else {
          var lines := LinesOf(s.items, user);
          assert r.orderItems[k] == r.orderItems[|s.orderItems| + (k - |s.orderItems|)];
          assert lines[k - |s.orderItems|] in s.items;
        }
      }
    }
  }
}

=== FILE: ids.dfy ===
/** The identifier shared by the account tables and the shop tables: a
    user's id, which carts and orders refer to. */
module Ids {
  type UserId = nat
}

=== FILE: reports.dfy ===
/** The figures the back-office dashboard and sales report compute from the
    shop tables: revenue, average order value, low-stock products, orders
    per day over the last week, top-selling products and the count of
    orders per status. */
module Reports {
  import opened Wrappers
  import opened Ids
  import opened Catalog
  import Checkout
  import AdminApp

  /** Products with fewer units than this are listed as low on stock. */
  const LowStockThreshold: int := 5

  /** How many products the top-sellers list shows. */
  const TopCount: nat := 5

  const SecondsPerDay: int := 86400

  /** How many days the per-day histogram covers, ending today. */
  const HistogramDays: nat := 7

  // ----------------------------------------------------------------- revenue

  /** Sum of the totals of all orders; 0 when there are none. */
  function TotalRevenue(orders: seq<Order>): (r: int)
    ensures |orders| == 0 ==> r == 0
    ensures (forall i :: 0 <= i < |orders| ==> orders[i].totalPrice >= 0) ==> r >= 0
  {
    if orders == [] then 0
    else
      var rest := TotalRevenue(orders[1..]);
      assert forall i :: 1 <= i < |orders| ==> orders[1..][i - 1] == orders[i];
      orders[0].totalPrice + rest
  }

  lemma {:induction false} RevenueAppend(a: seq<Order>, b: seq<Order>)
    ensures TotalRevenue(a + b) == TotalRevenue(a) + TotalRevenue(b)
    decreases |a|
  {
    if a == [] {
      assert a + b == b;
    } else {
      assert (a + b)[1..] == a[1..] + b;
      RevenueAppend(a[1..], b);
    }
  }

  /** Two order lists with the same totals, position by position, have the
      same revenue. */
  lemma {:induction false} RevenueDependsOnTotalsOnly(a: seq<Order>, b: seq<Order>)
    requires |a| == |b|
    requires forall i :: 0 <= i < |a| ==> a[i].totalPrice == b[i].totalPrice
    ensures TotalRevenue(a) == TotalRevenue(b)
    decreases |a|
  {
    if a != [] {
      RevenueDependsOnTotalsOnly(a[1..], b[1..]);
    }
  }

  /** Revenue divided by the number of orders, or 0 without orders. */
  function AverageOrderValue(orders: seq<Order>): (r: real)
    ensures |orders| == 0 ==> r == 0.0
    ensures |orders| > 0 ==> r * (|orders| as real) == TotalRevenue(orders) as real
  {
    if |orders| > 0 then
      var total := TotalRevenue(orders) as real;
      var count := |orders| as real;
      QuotientTimesDivisor(total, count);
      total / count
    else 0.0
  }

  lemma QuotientTimesDivisor(x: real, y: real)
    requires y != 0.0
    ensures (x / y) * y == x
  {
  }

  /** A placed order adds its total, the cart total, to the revenue. */
  lemma CheckoutAddsCartTotal(s: Shop, user: UserId, address: string, phone: string, now: int)
    requires Checkout.LinesReferToProducts(s)
    requires Checkout.Checkout(s, user, address, phone, now).outcome.Placed?
    ensures var r := Checkout.Checkout(s, user, address, phone, now).shop;
      && ProductsKnown(s.products, LinesOf(s.items, user))
      && TotalRevenue(r.orders) == TotalRevenue(s.orders) + CartTotal(s.products, LinesOf(s.items, user))
  {
    var r := Checkout.Checkout(s, user, address, phone, now).shop;
    assert r.orders == s.orders + [r.orders[|s.orders|]];
    RevenueAppend(s.orders, [r.orders[|s.orders|]]);
  }

  /** Status changes never change the revenue. */
  lemma StatusUpdateKeepsRevenue(s: Shop, oid: OrderId, value: Option<string>)
    ensures TotalRevenue(AdminApp.UpdateOrderStatus(s, oid, value).orders) == TotalRevenue(s.orders)
  {
    RevenueDependsOnTotalsOnly(AdminApp.UpdateOrderStatus(s, oid, value).orders, s.orders);
  }

  // --------------------------------------------------------------- low stock

  /** The products the dashboard lists as low on stock. */
  function LowStock(products: map<ProductId, Product>): set<ProductId> {
    set p | p in products && products[p].stock < LowStockThreshold
  }

  lemma {:induction false} QtyOfProductNonNegative(lines: seq<CartItem>, p: ProductId)
    requires PositiveQuantities(lines)
    ensures QtyOfProduct(lines, p) >= 0
    decreases |lines|
  {
    if lines != [] {
      QtyOfProductNonNegative(lines[1..], p);
    }
  }

  /** With positive line quantities, a checkout can only add products to the
      low-stock list, never take one off it. */
  lemma CheckoutOnlyGrowsLowStock(s: Shop, user: UserId, address: string, phone: string, now: int)
    requires Checkout.LinesReferToProducts(s)
    requires PositiveQuantities(s.items)
    ensures LowStock(s.products) <= LowStock(Checkout.Checkout(s, user, address, phone, now).shop.products)
  {
    var r := Checkout.Checkout(s, user, address, phone, now);
    if r.outcome.Placed? {
      var lines := LinesOf(s.items, user);
      forall k | 0 <= k < |lines| ensures lines[k].quantity >= 1 {
        assert lines[k] in s.items;
      }
      forall p | p in s.products ensures QtyOfProduct(lines, p) >= 0 {
        QtyOfProductNonNegative(lines, p);
      }
    }
  }

  // ------------------------------------------------------------ status count

  /** Number of orders with exactly status `st`. */
  function StatusCount(orders: seq<Order>, st: Status): nat {
    if orders == [] then 0 else (if orders[0].status == st then 1 else 0) + StatusCount(orders[1..], st)
  }

  datatype Breakdown = Breakdown(pending: nat, confirmed: nat, shipped: nat, delivered: nat)

  /** The report's status breakdown. */
  function StatusBreakdown(orders: seq<Order>): (r: Breakdown)
    ensures r.pending == StatusCount(orders, Pending)
    ensures r.confirmed == StatusCount(orders, Confirmed)
    ensures r.shipped == StatusCount(orders, Shipped)
    ensures r.delivered == StatusCount(orders, Delivered)
    ensures r.pending + r.confirmed + r.shipped + r.delivered == |orders|
  {
    BreakdownCoversAllOrders(orders);
    Breakdown(StatusCount(orders, Pending), StatusCount(orders, Confirmed),
              StatusCount(orders, Shipped), StatusCount(orders, Delivered))
  }

  /** The statuses of the orders, in order. */
  function Statuses(orders: seq<Order>): seq<Status> {
    seq(|orders|, i requires 0 <= i < |orders| => orders[i].status)
  }

  /** The count of a status is how many times it occurs among the orders'
      statuses. */
  lemma {:induction false} StatusCountIsMultiplicity(orders: seq<Order>, st: Status)
    ensures StatusCount(orders, st) == multiset(Statuses(orders))[st]
    decreases |orders|
  {
    if orders != [] {
      StatusCountIsMultiplicity(orders[1..], st);
      assert Statuses(orders) == [orders[0].status] + Statuses(orders[1..]);
    }
  }

  /** Every order has one of the four statuses, so the four counts add up to
      the number of orders. */
  lemma {:induction false} BreakdownCoversAllOrders(orders: seq<Order>)
    ensures StatusCount(orders, Pending) + StatusCount(orders, Confirmed)
          + StatusCount(orders, Shipped) + StatusCount(orders, Delivered) == |orders|
    decreases |orders|
  {
    if orders != [] {
      BreakdownCoversAllOrders(orders[1..]);
    }
  }

  /** Replacing one order changes the count of a status only by the old and
      the new order's contribution. */
  lemma {:induction false} StatusCountUpdate(orders: seq<Order>, i: nat, o: Order, st: Status)
    requires i < |orders|
    ensures StatusCount(orders[i := o], st)
      == StatusCount(orders, st) - (if orders[i].status == st then 1 else 0) + (if o.status == st then 1 else 0)
    decreases |orders|
  {
    if i == 0 {
      assert orders[i := o][1..] == orders[1..];
    } else {
      assert orders[i := o][1..] == orders[1..][i - 1 := o];
      StatusCountUpdate(orders[1..], i - 1, o, st);
    }
  }

  /** Moving an order from one status to another moves exactly one unit
      between the two counts of the breakdown. */
  lemma StatusUpdateMovesOneOrder(s: Shop, oid: OrderId, st: Status, other: Status)
    requires oid < |s.orders|
    ensures var r := AdminApp.UpdateOrderStatus(s, oid, Some(StatusName(st)));
      StatusCount(r.orders, other)
        == StatusCount(s.orders, other)
           - (if s.orders[oid].status == other then 1 else 0)
           + (if st == other then 1 else 0)
  {
    var r := AdminApp.UpdateOrderStatus(s, oid, Some(StatusName(st)));
    assert r.orders == s.orders[oid := s.orders[oid].(status := st)];
    StatusCountUpdate(s.orders, oid, s.orders[oid].(status := st), other);
  }

  // --------------------------------------------------------------- per day

  /** The calendar day a timestamp falls on (days since the epoch). */
  function Day(t: int): int {
    t / SecondsPerDay
  }

  /** Number of orders created on day `d`. */
  function CountOnDay(orders: seq<Order>, d: int): nat {
    if orders == [] then 0 else (if Day(orders[0].createdAt) == d then 1 else 0) + CountOnDay(orders[1..], d)
  }

  /** Number of orders created on a day in `lo .. hi - 1`. */
  function CountBetween(orders: seq<Order>, lo: int, hi: int): nat {
    if orders == [] then 0
    else (if lo <= Day(orders[0].createdAt) < hi then 1 else 0) + CountBetween(orders[1..], lo, hi)
  }

  /** Orders per day for the last seven days, oldest first, ending today. */
  function DailyOrders(orders: seq<Order>, now: int): (r: seq<nat>)
    ensures |r| == HistogramDays
    ensures forall k :: 0 <= k < |r| ==> r[k] == CountOnDay(orders, Day(now) - (HistogramDays - 1) + k)
  {
    DayCounts(orders, Day(now) - (HistogramDays - 1), HistogramDays)
  }

  function Sum(xs: seq<nat>): nat {
    if xs == [] then 0 else xs[0] + Sum(xs[1..])
  }

  lemma {:induction false} SumAppendOne(xs: seq<nat>, x: nat)
    ensures Sum(xs + [x]) == Sum(xs) + x
    decreases |xs|
  {
    if xs == [] {
      assert xs + [x] == [x];
    } else {
      assert (xs + [x])[1..] == xs[1..] + [x];
      SumAppendOne(xs[1..], x);
    }
  }

  lemma {:induction false} CountBetweenExtend(orders: seq<Order>, lo: int, hi: int)
    requires lo <= hi
    ensures CountBetween(orders, lo, hi + 1) == CountBetween(orders, lo, hi) + CountOnDay(orders, hi)
    decreases |orders|
  {
    if orders != [] {
      CountBetweenExtend(orders[1..], lo, hi);
    }
  }

  /** The counts of `n` consecutive days starting at `lo`. */
  function DayCounts(orders: seq<Order>, lo: int, n: nat): (r: seq<nat>)
    ensures |r| == n
    ensures forall k :: 0 <= k < n ==> r[k] == CountOnDay(orders, lo + k)
  {
    if n == 0 then [] else DayCounts(orders, lo, n - 1) + [CountOnDay(orders, lo + n - 1)]
  }

  lemma {:induction false} DayCountsSum(orders: seq<Order>, lo: int, n: nat)
    ensures Sum(DayCounts(orders, lo, n)) == CountBetween(orders, lo, lo + n)
    decreases n
  {
    if n == 0 {
      CountBetweenEmpty(orders, lo);
    } else {
      DayCountsSum(orders, lo, n - 1);
      SumAppendOne(DayCounts(orders, lo, n - 1), CountOnDay(orders, lo + n - 1));
      CountBetweenExtend(orders, lo, lo + n - 1);
    }
  }

  lemma {:induction false} CountBetweenEmpty(orders: seq<Order>, lo: int)
    ensures CountBetween(orders, lo, lo) == 0
    decreases |orders|
  {
    if orders != [] {
      CountBetweenEmpty(orders[1..], lo);
    }
  }

  /** The histogram accounts for every order placed in the last seven days
      and for no other order. */
  lemma DailyOrdersCoverTheWeek(orders: seq<Order>, now: int)
    ensures Sum(DailyOrders(orders, now)) == CountBetween(orders, Day(now) - (HistogramDays - 1), Day(now) + 1)
  {
    DayCountsSum(orders, Day(now) - (HistogramDays - 1), HistogramDays);
  }

  lemma {:induction false} CountOnDayAppend(orders: seq<Order>, o: Order, d: int)
    ensures CountOnDay(orders + [o], d) == CountOnDay(orders, d) + (if Day(o.createdAt) == d then 1 else 0)
    decreases |orders|
  {
    if orders == [] {
      assert orders + [o] == [o];
    } else {
      assert (orders + [o])[1..] == orders[1..] + [o];
      CountOnDayAppend(orders[1..], o, d);
    }
  }

  /** An order placed now is counted in today's bar, the last one, and
      nowhere else. */
  lemma CheckoutCountsToday(s: Shop, user: UserId, address: string, phone: string, now: int)
    requires Checkout.LinesReferToProducts(s)
    requires Checkout.Checkout(s, user, address, phone, now).outcome.Placed?
    ensures var before := DailyOrders(s.orders, now);
      var after := DailyOrders(Checkout.Checkout(s, user, address, phone, now).shop.orders, now);
      && after[HistogramDays - 1] == before[HistogramDays - 1] + 1
      && forall k :: 0 <= k < HistogramDays - 1 ==> after[k] == before[k]
  {
    var r := Checkout.Checkout(s, user, address, phone, now).shop;
    var o := r.orders[|s.orders|];
    assert r.orders == s.orders + [o];
    forall d: int ensures CountOnDay(r.orders, d) == CountOnDay(s.orders, d) + (if Day(now) == d then 1 else 0) {
      CountOnDayAppend(s.orders, o, d);
    }
  }

  // ------------------------------------------------------------ top sellers

  /** Product name and quantity of every order line. */
  function SoldRows(products: map<ProductId, Product>, ois: seq<OrderItem>): (r: seq<(string, int)>)
    requires forall k :: 0 <= k < |ois| ==> ois[k].product in products
    ensures |r| == |ois|
    ensures forall k :: 0 <= k < |ois| ==> r[k] == (products[ois[k].product].name, ois[k].quantity)
  {
    if ois == [] then []
    else [(products[ois[0].product].name, ois[0].quantity)] + SoldRows(products, ois[1..])
  }

  /** Quantity sold under product name `n`. */
  function QtyFor(rows: seq<(string, int)>, n: string): int {
    if rows == [] then 0 else (if rows[0].0 == n then rows[0].1 else 0) + QtyFor(rows[1..], n)
  }

  predicate Sold(rows: seq<(string, int)>, n: string) {
    exists k :: 0 <= k < |rows| && rows[k].0 == n
  }

  /** The distinct product names of the rows. */
  function Names(rows: seq<(string, int)>): (r: seq<string>)
    ensures forall n :: n in r <==> Sold(rows, n)
    ensures forall i, j :: 0 <= i < j < |r| ==> r[i] != r[j]
  {
    if rows == [] then []
    else
      var rest := Names(rows[1..]);
      assert forall n :: Sold(rows[1..], n) ==> Sold(rows, n) by {
        forall n | Sold(rows[1..], n) ensures Sold(rows, n) {
          var k :| 0 <= k < |rows[1..]| && rows[1..][k].0 == n;
          assert rows[k + 1].0 == n;
        }
      }
      assert forall n :: Sold(rows, n) && n != rows[0].0 ==> Sold(rows[1..], n) by {
        forall n | Sold(rows, n) && n != rows[0].0 ensures Sold(rows[1..], n) {
          var k :| 0 <= k < |rows| && rows[k].0 == n;
          assert rows[1..][k - 1].0 == n;
        }
      }
      if rows[0].0 in rest then rest else [rows[0].0] + rest
  }

  /** One (name, quantity sold) pair per product name. */
  function Groups(rows: seq<(string, int)>): seq<(string, int)> {
    var ns := Names(rows);
    seq(|ns|, i requires 0 <= i < |ns| => (ns[i], QtyFor(rows, ns[i])))
  }

  predicate SortedByQty(s: seq<(string, int)>) {
    forall i, j :: 0 <= i < j < |s| ==> s[i].1 >= s[j].1
  }

  predicate DistinctNames(s: seq<(string, int)>) {
    forall i, j :: 0 <= i < j < |s| ==> s[i].0 != s[j].0
  }

  /** Inserts `g` into a list sorted by decreasing quantity. */
  function Insert(g: (string, int), s: seq<(string, int)>): (r: seq<(string, int)>)
    requires SortedByQty(s)
    ensures |r| == |s| + 1
    ensures multiset(r) == multiset(s) + multiset{g}
    ensures forall x :: x in r <==> x == g || x in s
    ensures SortedByQty(r)
    ensures DistinctNames(s) && (forall x :: x in s ==> x.0 != g.0) ==> DistinctNames(r)
  {
    if s == [] || g.1 >= s[0].1 then [g] + s
    else
      var rest := Insert(g, s[1..]);
      InsertStep(g, s, rest);
      [s[0]] + rest
  }

  /** Insert's recursive step: putting the head back in front of the
      tail with `g` inserted keeps every promise of Insert. */
  lemma InsertStep(g: (string, int), s: seq<(string, int)>, rest: seq<(string, int)>)
    requires s != [] && SortedByQty(s) && g.1 < s[0].1
    requires |rest| == |s|
    requires multiset(rest) == multiset(s[1..]) + multiset{g}
    requires forall x :: x in rest <==> x == g || x in s[1..]
    requires SortedByQty(rest)
    requires DistinctNames(s[1..]) && (forall x :: x in s[1..] ==> x.0 != g.0) ==> DistinctNames(rest)
    ensures |[s[0]] + rest| == |s| + 1
    ensures multiset([s[0]] + rest) == multiset(s) + multiset{g}
    ensures forall x :: x in [s[0]] + rest <==> x == g || x in s
    ensures SortedByQty([s[0]] + rest)
    ensures DistinctNames(s) && (forall x :: x in s ==> x.0 != g.0) ==> DistinctNames([s[0]] + rest)
  {
    assert s == [s[0]] + s[1..];
    assert multiset(s) == multiset{s[0]} + multiset(s[1..]);
    assert multiset([s[0]] + rest) == multiset{s[0]} + multiset(rest);
    if DistinctNames(s) {
      assert DistinctNames(s[1..]) by {
        forall i, j | 0 <= i < j < |s[1..]| ensures s[1..][i].0 != s[1..][j].0 {
          assert s[1..][i] == s[i + 1] && s[1..][j] == s[j + 1];
        }
      }
    }
    InsertKeepsSorted(g, s, rest);
    InsertKeepsDistinct(g, s, rest);
  }

  /** The step of Insert's proof that keeps the order. */
  lemma InsertKeepsSorted(g: (string, int), s: seq<(string, int)>, rest: seq<(string, int)>)
    requires s != [] && SortedByQty(s) && g.1 < s[0].1
    requires forall x :: x in rest <==> x == g || x in s[1..]
    requires SortedByQty(rest)
    ensures SortedByQty([s[0]] + rest)
  {
    var r := [s[0]] + rest;
    forall i, j | 0 <= i < j < |r| ensures r[i].1 >= r[j].1 {
      var x := r[j];
      assert x == rest[j - 1] && x in rest;
      if i == 0 {
        if x != g {
          var k :| 0 <= k < |s[1..]| && s[1..][k] == x;
          assert s[k + 1] == x;
        }
      } else {
        assert r[i] == rest[i - 1];
      }
    }
  }

  /** The step of Insert's proof that keeps names distinct. */
  lemma InsertKeepsDistinct(g: (string, int), s: seq<(string, int)>, rest: seq<(string, int)>)
    requires s != []
    requires forall x :: x in rest <==> x == g || x in s[1..]
    requires DistinctNames(s) && (forall x :: x in s ==> x.0 != g.0) ==> DistinctNames(rest)
    ensures DistinctNames(s) && (forall x :: x in s ==> x.0 != g.0) ==> DistinctNames([s[0]] + rest)
  {
    if DistinctNames(s) && (forall x :: x in s ==> x.0 != g.0) {
      var r := [s[0]] + rest;
      forall i, j | 0 <= i < j < |r| ensures r[i].0 != r[j].0 {
        var x := r[j];
        assert x == rest[j - 1] && x in rest;
        if i == 0 {
          if x == g {
            assert s[0] in s;
          } else {
            var k :| 0 <= k < |s[1..]| && s[1..][k] == x;
            assert s[k + 1] == x;
          }
        } else {
          assert r[i] == rest[i - 1];
        }
      }
    }
  }

  /** Sorts by decreasing quantity (insertion sort). */
  function SortByQty(s: seq<(string, int)>): (r: seq<(string, int)>)
    ensures |r| == |s|
    ensures multiset(r) == multiset(s)
    ensures forall x :: x in r <==> x in s
    ensures SortedByQty(r)
    ensures DistinctNames(s) ==> DistinctNames(r)
  {
    if s == [] then []
    else
      var rest := SortByQty(s[1..]);
      var r := Insert(s[0], rest);
      SortStep(s, rest, r);
      r
  }

  /** SortByQty's recursive step: inserting the head into the sorted tail
      keeps every promise of SortByQty. */
  lemma SortStep(s: seq<(string, int)>, rest: seq<(string, int)>, r: seq<(string, int)>)
    requires s != []
    requires |rest| == |s| - 1 && multiset(rest) == multiset(s[1..])
    requires forall x :: x in rest <==> x in s[1..]
    requires DistinctNames(s[1..]) ==> DistinctNames(rest)
    requires |r| == |rest| + 1 && multiset(r) == multiset(rest) + multiset{s[0]}
    requires forall x :: x in r <==> x == s[0] || x in rest
    requires SortedByQty(r)
    requires DistinctNames(rest) && (forall x :: x in rest ==> x.0 != s[0].0) ==> DistinctNames(r)
    ensures |r| == |s|
    ensures multiset(r) == multiset(s)
    ensures forall x :: x in r <==> x in s
    ensures DistinctNames(s) ==> DistinctNames(r)
  {
    assert s == [s[0]] + s[1..];
    assert multiset(s) == multiset{s[0]} + multiset(s[1..]);
    if DistinctNames(s) {
      assert DistinctNames(s[1..]) by {
        forall i, j | 0 <= i < j < |s[1..]| ensures s[1..][i].0 != s[1..][j].0 {
          assert s[1..][i] == s[i + 1] && s[1..][j] == s[j + 1];
        }
      }
      forall x | x in rest ensures x.0 != s[0].0 {
        var k :| 0 <= k < |s[1..]| && s[1..][k] == x;
        assert s[k + 1] == x;
      }
    }
  }

  /** The report's top sellers: at most five product names with the total
      quantity sold under each, largest first. */
  function TopProducts(rows: seq<(string, int)>): (r: seq<(string, int)>)
    ensures |r| <= TopCount
    ensures SortedByQty(r)
    ensures DistinctNames(r)
    ensures forall i :: 0 <= i < |r| ==> Sold(rows, r[i].0) && r[i].1 == QtyFor(rows, r[i].0)
  {
    var groups := Groups(rows);
    GroupsAreSoldTotals(rows);
    var sorted := SortByQty(groups);
    var n := if |sorted| < TopCount then |sorted| else TopCount;
    SortedPrefixKeeps(rows, groups, sorted, n);
    sorted[..n]
  }

  /** Every group names a product sold and carries its total quantity,
      and no name is grouped twice. */
  lemma GroupsAreSoldTotals(rows: seq<(string, int)>)
    ensures DistinctNames(Groups(rows))
    ensures forall g :: g in Groups(rows) ==> Sold(rows, g.0) && g.1 == QtyFor(rows, g.0)
  {
    var groups := Groups(rows);
    var ns := Names(rows);
    forall g | g in groups ensures Sold(rows, g.0) && g.1 == QtyFor(rows, g.0) {
      var i :| 0 <= i < |groups| && groups[i] == g;
      assert ns[i] in ns;
    }
  }

  /** A prefix of a sorted permutation of the groups keeps the order, the
      distinct names and the per-name totals. */
  lemma SortedPrefixKeeps(rows: seq<(string, int)>, groups: seq<(string, int)>, sorted: seq<(string, int)>, n: nat)
    requires n <= |sorted|
    requires forall g :: g in groups ==> Sold(rows, g.0) && g.1 == QtyFor(rows, g.0)
    requires forall x :: x in sorted <==> x in groups
    requires SortedByQty(sorted) && DistinctNames(sorted)
    ensures SortedByQty(sorted[..n]) && DistinctNames(sorted[..n])
    ensures forall i :: 0 <= i < n ==> Sold(rows, sorted[..n][i].0) && sorted[..n][i].1 == QtyFor(rows, sorted[..n][i].0)
  {
    forall i | 0 <= i < n ensures Sold(rows, sorted[..n][i].0) && sorted[..n][i].1 == QtyFor(rows, sorted[..n][i].0) {
      assert sorted[..n][i] == sorted[i] && sorted[i] in sorted;
    }
  }

  /** In a list sorted by decreasing quantity, an entry that is not among
      the first `m` lies beyond them and does not outrank the m-th. */
  lemma SortedPrefixHoldsLargest(sorted: seq<(string, int)>, m: nat, g: (string, int))
    requires SortedByQty(sorted) && m <= |sorted|
    requires g in sorted && g !in sorted[..m]
    ensures m < |sorted|
    ensures m > 0 ==> g.1 <= sorted[m - 1].1
  {
    var j :| 0 <= j < |sorted| && sorted[j] == g;
    assert m <= j;
  }

  /** Nothing sold is left out of the top sellers unless the list is full
      and it sold no more than the last entry: the list holds the largest
      quantities, and every product when there are at most five. */
  lemma TopProductsAreTheTop(rows: seq<(string, int)>, n: string)
    requires Sold(rows, n)
    requires forall i :: 0 <= i < |TopProducts(rows)| ==> TopProducts(rows)[i].0 != n
    ensures |TopProducts(rows)| == TopCount
    ensures QtyFor(rows, n) <= TopProducts(rows)[TopCount - 1].1
  {
    var groups := Groups(rows);
    var sorted := SortByQty(groups);
    var r := TopProducts(rows);
    var m := |r|;
    assert r == sorted[..m];
    var ns := Names(rows);
    assert n in ns;
    var i :| 0 <= i < |ns| && ns[i] == n;
    var g := groups[i];
    assert g.0 == n && g.1 == QtyFor(rows, n);
    assert g in groups;
    assert g in sorted;
    assert g !in r;
    SortedPrefixHoldsLargest(sorted, m, g);
  }

  // ------------------------------------------------- top sellers of the shop

  /** The report's top sellers over the shop's order lines, each line
      counted under its product's name. */
  function TopSellers(s: Shop): (r: seq<(string, int)>)
    requires Valid(s)
    ensures |r| <= TopCount && SortedByQty(r) && DistinctNames(r)
    ensures forall i :: 0 <= i < |r| ==>
      && (exists k :: 0 <= k < |s.orderItems| && s.products[s.orderItems[k].product].name == r[i].0)
      && r[i].1 == QtyFor(SoldRows(s.products, s.orderItems), r[i].0)
  {
    var rows := SoldRows(s.products, s.orderItems);
    var r := TopProducts(rows);
    forall i | 0 <= i < |r|
      ensures exists k :: 0 <= k < |s.orderItems| && s.products[s.orderItems[k].product].name == r[i].0
    {
      var k :| 0 <= k < |rows| && rows[k].0 == r[i].0;
      assert s.products[s.orderItems[k].product].name == r[i].0;
    }
    r
  }

  /** A name some order line was sold under is in the top sellers unless
      the list is full and it sold no more than the last entry. */
  lemma TopSellersAreTheTop(s: Shop, k: nat)
    requires Valid(s) && k < |s.orderItems|
    requires forall i :: 0 <= i < |TopSellers(s)| ==> TopSellers(s)[i].0 != s.products[s.orderItems[k].product].name
    ensures |TopSellers(s)| == TopCount
    ensures QtyFor(SoldRows(s.products, s.orderItems), s.products[s.orderItems[k].product].name)
      <= TopSellers(s)[TopCount - 1].1
  {
    var rows := SoldRows(s.products, s.orderItems);
    var n := s.products[s.orderItems[k].product].name;
    assert rows[k].0 == n;
    assert TopSellers(s) == TopProducts(rows);
    TopProductsAreTheTop(rows, n);
  }

  lemma {:induction false} SoldRowsAppend(products: map<ProductId, Product>, a: seq<OrderItem>, b: seq<OrderItem>)
    requires forall k :: 0 <= k < |a| ==> a[k].product in products
    requires forall k :: 0 <= k < |b| ==> b[k].product in products
    ensures SoldRows(products, a + b) == SoldRows(products, a) + SoldRows(products, b)
    decreases |a|
  {
    if a != [] {
      assert (a + b)[1..] == a[1..] + b;
      SoldRowsAppend(products, a[1..], b);
    }
  }

  lemma {:induction false} QtyForAppend(a: seq<(string, int)>, b: seq<(string, int)>, n: string)
    ensures QtyFor(a + b, n) == QtyFor(a, n) + QtyFor(b, n)
    decreases |a|
  {
    if a != [] {
      assert (a + b)[0] == a[0] && (a + b)[1..] == a[1..] + b;
      QtyForAppend(a[1..], b, n);
    } else {
      assert a + b == b;
    }
  }

  lemma {:induction false} QtyForNonNegative(rows: seq<(string, int)>, n: string)
    requires forall k :: 0 <= k < |rows| ==> rows[k].1 >= 0
    ensures QtyFor(rows, n) >= 0
    decreases |rows|
  {
    if rows != [] {
      QtyForNonNegative(rows[1..], n);
    }
  }

  /** Only product names matter to the sold rows: a checkout's stock
      changes leave them alone. */
  lemma SoldRowsSeeNamesOnly(p1: map<ProductId, Product>, p2: map<ProductId, Product>, ois: seq<OrderItem>)
    requires forall k :: 0 <= k < |ois| ==> ois[k].product in p1 && ois[k].product in p2
    requires forall p :: p in p1 && p in p2 ==> p1[p].name == p2[p].name
    ensures SoldRows(p1, ois) == SoldRows(p2, ois)
  {
  }

  /** Appending order lines with non-negative quantities never lowers the
      quantity sold under a name. */
  lemma AppendedLinesNeverLowerSales(products: map<ProductId, Product>, before: seq<OrderItem>, added: seq<OrderItem>, n: string)
    requires forall k :: 0 <= k < |before| ==> before[k].product in products
    requires forall k :: 0 <= k < |added| ==> added[k].product in products && added[k].quantity >= 0
    ensures QtyFor(SoldRows(products, before), n) <= QtyFor(SoldRows(products, before + added), n)
  {
    SoldRowsAppend(products, before, added);
    QtyForAppend(SoldRows(products, before), SoldRows(products, added), n);
    QtyForNonNegative(SoldRows(products, added), n);
  }

  /** Appending the order lines copied from a cart with positive
      quantities never lowers the quantity sold under a name. */
  lemma OrderedCartNeverLowersSales(s: Shop, user: UserId, oid: OrderId, n: string)
    requires Valid(s) && PositiveQuantities(s.items)
    ensures ProductsKnown(s.products, LinesOf(s.items, user))
    ensures QtyFor(SoldRows(s.products, s.orderItems), n)
      <= QtyFor(SoldRows(s.products, s.orderItems + Checkout.OrderLines(oid, s.products, LinesOf(s.items, user))), n)
  {
    var lines := LinesOf(s.items, user);
    Checkout.LinesOfKnown(s.products, s.items, user);
    var added := Checkout.OrderLines(oid, s.products, lines);
    forall k | 0 <= k < |added| ensures added[k].product in s.products && added[k].quantity >= 0 {
      assert lines[k] in s.items;
    }
    AppendedLinesNeverLowerSales(s.products, s.orderItems, added, n);
  }

  /** The step of CheckoutNeverLowersSales for a placed order, over the
      new product and order-line tables. */
  lemma PlacedOrderNeverLowersSales(s: Shop, user: UserId, products: map<ProductId, Product>,
                                    orderItems: seq<OrderItem>, n: string)
    requires Valid(s) && PositiveQuantities(s.items)
    requires ProductsKnown(s.products, LinesOf(s.items, user))
    requires orderItems == s.orderItems + Checkout.OrderLines(|s.orders|, s.products, LinesOf(s.items, user))
    requires products.Keys == s.products.Keys
    requires forall p :: p in s.products ==> products[p].name == s.products[p].name
    requires forall k :: 0 <= k < |orderItems| ==> orderItems[k].product in products
    ensures QtyFor(SoldRows(s.products, s.orderItems), n) <= QtyFor(SoldRows(products, orderItems), n)
  {
    OrderedCartNeverLowersSales(s, user, |s.orders|, n);
    SoldRowsSeeNamesOnly(products, s.products, orderItems);
  }

  /** With positive cart quantities, a checkout never lowers the quantity
      sold under any product name, so no name's report figure shrinks. */
  lemma CheckoutNeverLowersSales(s: Shop, user: UserId, address: string, phone: string, now: int, n: string)
    requires Valid(s) && PositiveQuantities(s.items)
    ensures var r := Checkout.Checkout(s, user, address, phone, now).shop;
      && Valid(r)
      && QtyFor(SoldRows(s.products, s.orderItems), n) <= QtyFor(SoldRows(r.products, r.orderItems), n)
  {
    var st := Checkout.Checkout(s, user, address, phone, now);
    Checkout.CheckoutKeepsValid(s, user, address, phone, now);
    if st.outcome.Placed? {
      Checkout.CheckoutAppendsOrderLines(s, user, address, phone, now);
      PlacedOrderNeverLowersSales(s, user, st.shop.products, st.shop.orderItems, n);
    }
  }
}

=== FILE: userapp.dfy ===
/** Registration and the two-step (password, then emailed one-time code)
    login of the storefront, as transitions over the user table, the
    profile table and one browser session.

    Time is an integer number of seconds. The mail transport and the code
    generator are not modelled: whether a send succeeded and which code was
    generated are parameters of the transitions. */
module UserApp {
  import opened Wrappers
  import opened Ids

  /** How long an issued login code stays valid, in seconds (10 minutes). */
  const OtpValiditySeconds: int := 600

  /** An account. The user name is the email address the account was
      registered with; `password` stands for the stored credential. */
  datatype User = User(username: string, email: string, firstName: string, password: string, isStaff: bool)

  /** Per-user profile holding the pending login code. */
  datatype Profile = Profile(phone: string, otp: Option<string>, otpCreatedAt: Option<int>, otpVerified: bool)

  /** The user table (a user's id is its position) and the profile table,
      keyed by the id of the owning user. */
  datatype Db = Db(users: seq<User>, profiles: map<UserId, Profile>)

  /** The pending-login markers a session carries between the two steps. */
  datatype Pending = Pending(userId: UserId, email: string)

  /** One browser session: the pending-login markers and the logged-in user. */
  datatype Session = Session(pending: Option<Pending>, authUser: Option<UserId>)

  /** Where a request ends up. `ErrorPage` is an uncaught exception. */
  datatype Page = RegisterPage | LoginPage | VerifyOtpPage | HomePage | ErrorPage

  /** A generated login code: six decimal digits. */
  predicate IsOtpCode(c: string) {
    |c| == 6 && forall i :: 0 <= i < |c| ==> '0' <= c[i] <= '9'
  }

  /** The credential check; hashing is abstracted away. */
  predicate PasswordMatches(u: User, password: string) {
    u.password == password
  }

  predicate UniqueUsernames(users: seq<User>) {
    forall i, j :: 0 <= i < j < |users| ==> users[i].username != users[j].username
  }

  predicate UsernameTaken(users: seq<User>, name: string) {
    exists i :: 0 <= i < |users| && users[i].username == name
  }

  /** What the database guarantees between requests: unique user names,
      every profile belongs to a user, every stored code is a six-digit code. */
  predicate WellFormed(db: Db) {
    && UniqueUsernames(db.users)
    && (forall id :: id in db.profiles ==> id < |db.users|)
    && (forall id :: id in db.profiles && db.profiles[id].otp.Some? ==> IsOtpCode(db.profiles[id].otp.value))
  }

  /** Looks a user up by user name (the first one, which is the only one
      when user names are unique). */
  function FindUsername(users: seq<User>, name: string): (r: Option<UserId>)
    ensures r.Some? ==> r.value < |users| && users[r.value].username == name
    ensures r.Some? ==> forall j :: 0 <= j < r.value ==> users[j].username != name
    ensures r.None? <==> !UsernameTaken(users, name)
  {
    if users == [] then None
    else if users[0].username == name then Some(0)
    else
      match FindUsername(users[1..], name)
      case None => None
      case Some(i) => Some(i + 1)
  }

  // ---------------------------------------------------------------- register

  datatype RegisterOutcome =
    | PasswordMismatch
    | AlreadyRegistered
    | MissingUsername
    | Registered(userId: UserId, welcomeSent: bool)
  {
    function Target(): Page {
      match this
      case PasswordMismatch => RegisterPage
      case AlreadyRegistered => RegisterPage
      case MissingUsername => ErrorPage
      case Registered(_, _) => LoginPage
    }
  }

  datatype RegisterStep = RegisterStep(db: Db, outcome: RegisterOutcome)

  /** The profile a registration creates: no code, not verified. */
  function NewProfile(phone: string): Profile {
    Profile(phone, None, None, false)
  }

  /** Registration with the email as user name. The password confirmation is
      checked first, then that the user name is free; creating a user with
      an empty user name fails in the framework. Whether the welcome email
      went out only changes the message shown. */
  function Register(db: Db, email: string, name: string, phone: string,
                    password: string, confirm: string, welcomeSent: bool): (r: RegisterStep)
    ensures password != confirm ==> r.outcome == PasswordMismatch && r.db == db
    ensures password == confirm && UsernameTaken(db.users, email) ==> r.outcome == AlreadyRegistered && r.db == db
    ensures r.outcome.Registered? <==> password == confirm && email != "" && !UsernameTaken(db.users, email)
    ensures r.outcome == MissingUsername <==> password == confirm && !UsernameTaken(db.users, email) && email == ""
    ensures !r.outcome.Registered? ==> r.db == db
    ensures r.outcome.Registered? ==>
      && r.outcome.userId == |db.users|
      && |r.db.users| == |db.users| + 1
      && r.db.users[..|db.users|] == db.users
      && r.db.users[|db.users|] == User(email, email, name, password, false)
      && r.db.profiles.Keys == db.profiles.Keys + {|db.users|}
      && r.db.profiles[|db.users|] == NewProfile(phone)
      && (forall id :: id in db.profiles && id != |db.users| ==> r.db.profiles[id] == db.profiles[id])
      && r.outcome.welcomeSent == welcomeSent
      && r.outcome.Target() == LoginPage
    ensures WellFormed(db) ==> WellFormed(r.db)
  {
    if password != confirm then RegisterStep(db, PasswordMismatch)
    else if FindUsername(db.users, email).Some? then RegisterStep(db, AlreadyRegistered)
    else if email == "" then RegisterStep(db, MissingUsername)
    else
      var id := |db.users|;
      var users' := db.users + [User(email, email, name, password, false)];
      assert forall i :: 0 <= i < |db.users| ==> users'[i] == db.users[i];
      RegisterStep(Db(users', db.profiles[id := NewProfile(phone)]), Registered(id, welcomeSent))
  }

  // ------------------------------------------------------------------- login

  datatype LoginOutcome =
    | UnknownUser
    | WrongPassword
    | LoginProfileMissing
    | OtpSent(userId: UserId)
    | OtpSendFailed(userId: UserId)
  {
    function Target(): Page {
      match this
      case UnknownUser => RegisterPage
      case WrongPassword => LoginPage
      case LoginProfileMissing => ErrorPage
      case OtpSent(_) => VerifyOtpPage
      case OtpSendFailed(_) => LoginPage
    }
  }

  datatype LoginStep = LoginStep(db: Db, session: Session, outcome: LoginOutcome)

  /** The profile after a code has been issued at `now`. */
  function Issue(p: Profile, code: string, now: int): Profile {
    p.(otp := Some(code), otpCreatedAt := Some(now), otpVerified := false)
  }

  /** First login step: check the credentials, store a fresh code on the
      profile, email it, and only when the email went out set the
      pending-login markers. `code` is what the generator produced and
      `sent` whether the transport reported success. */
  function Login(db: Db, session: Session, email: string, password: string,
                 code: string, now: int, sent: bool): (r: LoginStep)
    requires IsOtpCode(code)
    ensures r.db.users == db.users
    ensures !UsernameTaken(db.users, email) ==> r.outcome == UnknownUser
    ensures r.outcome.UnknownUser? || r.outcome.WrongPassword? || r.outcome.LoginProfileMissing? ==>
      r.db == db && r.session == session
    ensures r.outcome.WrongPassword? ==> UsernameTaken(db.users, email)
    ensures UsernameTaken(db.users, email) ==>
      var id := FindUsername(db.users, email).value;
      && (!PasswordMatches(db.users[id], password) ==> r.outcome == WrongPassword)
      && (PasswordMatches(db.users[id], password) && id !in db.profiles ==> r.outcome == LoginProfileMissing)
      && (PasswordMatches(db.users[id], password) && id in db.profiles ==>
            r.outcome == if sent then OtpSent(id) else OtpSendFailed(id))
    ensures r.outcome.OtpSent? || r.outcome.OtpSendFailed? ==>
      var id := r.outcome.userId;
      && id < |db.users| && db.users[id].username == email
      && PasswordMatches(db.users[id], password)
      && id in db.profiles
      && r.db.profiles.Keys == db.profiles.Keys
      && r.db.profiles[id].otp == Some(code)
      && r.db.profiles[id].otpCreatedAt == Some(now)
      && !r.db.profiles[id].otpVerified
      && r.db.profiles[id].phone == db.profiles[id].phone
      && (forall k :: k in db.profiles && k != id ==> r.db.profiles[k] == db.profiles[k])
    ensures r.outcome.OtpSent? ==> sent && r.session == session.(pending := Some(Pending(r.outcome.userId, email)))
    ensures r.outcome.OtpSendFailed? ==> !sent && r.session == session
    ensures r.session.authUser == session.authUser
    ensures WellFormed(db) ==> WellFormed(r.db)
  {
    match FindUsername(db.users, email)
    case None => LoginStep(db, session, UnknownUser)
    case Some(id) =>
      if !PasswordMatches(db.users[id], password) then LoginStep(db, session, WrongPassword)
      else if id !in db.profiles then LoginStep(db, session, LoginProfileMissing)
      else
        var db' := db.(profiles := db.profiles[id := Issue(db.profiles[id], code, now)]);
        if sent then LoginStep(db', session.(pending := Some(Pending(id, email))), OtpSent(id))
        else LoginStep(db', session, OtpSendFailed(id))
  }

  // -------------------------------------------------------------- verify otp

  datatype VerifyOutcome =
    | NoPendingLogin
    | PendingUserMissing
    | VerifyProfileMissing
    | OtpExpired
    | OtpInvalid
    | LoggedIn(userId: UserId)
    | LoginCrashed(userId: UserId)
  {
    /** The submitted code matched the stored one and was consumed. */
    predicate Accepted() {
      LoggedIn? || LoginCrashed?
    }

    function Target(): Page {
      match this
      case NoPendingLogin => LoginPage
      case PendingUserMissing => LoginPage
      case VerifyProfileMissing => ErrorPage
      case OtpExpired => LoginPage
      case OtpInvalid => VerifyOtpPage
      case LoggedIn(_) => HomePage
      case LoginCrashed(_) => ErrorPage
    }
  }

  datatype VerifyStep = VerifyStep(db: Db, session: Session, outcome: VerifyOutcome)

  /** True when a code issued at `issuedAt` is past its window at `now`. A
      profile without an issue time is never considered expired. Exactly
      ten minutes is still in time. */
  predicate Expired(issuedAt: Option<int>, now: int) {
    issuedAt.Some? && now - issuedAt.value > OtpValiditySeconds
  }

  /** The profile after its code has been accepted: verified, code consumed. */
  function Consume(p: Profile): Profile {
    p.(otpVerified := true, otp := None)
  }

  /** True when the session's pending login names an existing user with a
      profile, whose code has not expired at `now`. */
  predicate LiveChallenge(db: Db, session: Session, now: int) {
    && session.pending.Some?
    && session.pending.value.userId < |db.users|
    && session.pending.value.userId in db.profiles
    && !Expired(db.profiles[session.pending.value.userId].otpCreatedAt, now)
  }

  /** True when the framework's login keeps the session for user `id`: the
      session has no logged-in user, or already has `id`. Otherwise the
      framework empties the session before logging `id` in. */
  predicate KeepsSessionOnLogin(session: Session, id: UserId) {
    session.authUser.None? || session.authUser == Some(id)
  }

  /** Second login step: compare the submitted code (absent when the form
      field is missing) with the stored one. When the session was logged in
      as another user, the framework's login empties it, markers included,
      so removing the markers afterwards fails: the request ends in a
      server error after the profile was saved, and the browser is left
      with no session (the emptied one is not saved on a server error). */
  function Verify(db: Db, session: Session, code: Option<string>, now: int): (r: VerifyStep)
    ensures session.pending.None? ==> r.outcome == NoPendingLogin && r.db == db && r.session == session
    ensures r.outcome.NoPendingLogin? <==> session.pending.None?
    ensures r.outcome.PendingUserMissing? <==> session.pending.Some? && session.pending.value.userId >= |db.users|
    ensures r.outcome.VerifyProfileMissing? <==>
      && session.pending.Some?
      && session.pending.value.userId < |db.users|
      && session.pending.value.userId !in db.profiles
    ensures r.db.users == db.users
    ensures !r.outcome.Accepted() ==> r.db == db && r.session.authUser == session.authUser
    ensures r.outcome.PendingUserMissing? || r.outcome.VerifyProfileMissing? || r.outcome.OtpInvalid? ==>
      r.session == session
    ensures r.outcome.OtpExpired? <==>
      && session.pending.Some?
      && session.pending.value.userId < |db.users|
      && session.pending.value.userId in db.profiles
      && Expired(db.profiles[session.pending.value.userId].otpCreatedAt, now)
    ensures r.outcome.OtpExpired? ==> r.session == session.(pending := None)
    ensures r.outcome.LoggedIn? <==>
      && LiveChallenge(db, session, now) && db.profiles[session.pending.value.userId].otp == code
      && KeepsSessionOnLogin(session, session.pending.value.userId)
    ensures r.outcome.LoginCrashed? <==>
      && LiveChallenge(db, session, now) && db.profiles[session.pending.value.userId].otp == code
      && !KeepsSessionOnLogin(session, session.pending.value.userId)
    ensures r.outcome.OtpInvalid? <==>
      LiveChallenge(db, session, now) && db.profiles[session.pending.value.userId].otp != code
    ensures r.outcome.LoggedIn? ==> r.session == Session(None, Some(r.outcome.userId))
    ensures r.outcome.LoginCrashed? ==> r.session == Session(None, None)
    ensures r.outcome.Accepted() ==>
      var id := session.pending.value.userId;
      && r.outcome.userId == id
      && r.db.profiles.Keys == db.profiles.Keys
      && r.db.profiles[id].otpVerified
      && r.db.profiles[id].otp.None?
      && r.db.profiles[id].phone == db.profiles[id].phone
      && r.db.profiles[id].otpCreatedAt == db.profiles[id].otpCreatedAt
      && (forall k :: k in db.profiles && k != id ==> r.db.profiles[k] == db.profiles[k])
    ensures WellFormed(db) ==> WellFormed(r.db)
  {
    match session.pending
    case None => VerifyStep(db, session, NoPendingLogin)
    case Some(pending) =>
      var id := pending.userId;
      if id >= |db.users| then VerifyStep(db, session, PendingUserMissing)
      else if id !in db.profiles then VerifyStep(db, session, VerifyProfileMissing)
      else
        var p := db.profiles[id];
        if Expired(p.otpCreatedAt, now) then VerifyStep(db, session.(pending := None), OtpExpired)
        else if p.otp == code then
          var db' := db.(profiles := db.profiles[id := Consume(p)]);
          if KeepsSessionOnLogin(session, id) then VerifyStep(db', Session(None, Some(id)), LoggedIn(id))
          else VerifyStep(db', Session(None, None), LoginCrashed(id))
        else VerifyStep(db, session, OtpInvalid)
  }

  // ------------------------------------------------------------------ logout

  /** Logging out discards the whole session, markers included. */
  function Logout(session: Session): (r: Session)
    ensures r.authUser.None? && r.pending.None?
  {
    Session(None, None)
  }

  // ----------------------------------------------------------------- lemmas

  /** A successful registration adds exactly one user and one profile. */
  lemma RegisterAddsOneUserAndProfile(db: Db, email: string, name: string, phone: string,
                                      password: string, welcomeSent: bool)
    requires WellFormed(db)
    requires email != "" && !UsernameTaken(db.users, email)
    ensures var r := Register(db, email, name, phone, password, password, welcomeSent);
      && r.outcome == Registered(|db.users|, welcomeSent)
      && |r.db.users| == |db.users| + 1
      && |r.db.profiles| == |db.profiles| + 1
  {
    var r := Register(db, email, name, phone, password, password, welcomeSent);
    assert |db.users| !in db.profiles;
    assert r.db.profiles.Keys == db.profiles.Keys + {|db.users|};
  }

  /** Whatever the state, no registration ever yields two users with the
      same user name. */
  lemma RegisterKeepsUsernamesUnique(db: Db, email: string, name: string, phone: string,
                                     password: string, confirm: string, welcomeSent: bool)
    requires UniqueUsernames(db.users)
    ensures UniqueUsernames(Register(db, email, name, phone, password, confirm, welcomeSent).db.users)
  {
    var r := Register(db, email, name, phone, password, confirm, welcomeSent);
    if r.outcome.Registered? {
      var users' := r.db.users;
      forall i, j | 0 <= i < j < |users'|
        ensures users'[i].username != users'[j].username
      {
        if j == |db.users| {
          assert users'[i] == db.users[i];
        } else {
          assert users'[i] == db.users[i] && users'[j] == db.users[j];
        }
      }
    }
  }

  /** The account a registration creates can start a login with the same
      email and password. */
  lemma {:induction false} RegisterThenLogin(db: Db, session: Session, email: string, name: string,
                                             phone: string, password: string, welcomeSent: bool,
                                             code: string, now: int, sent: bool)
    requires WellFormed(db) && IsOtpCode(code)
    requires Register(db, email, name, phone, password, password, welcomeSent).outcome.Registered?
    ensures var db' := Register(db, email, name, phone, password, password, welcomeSent).db;
      Login(db', session, email, password, code, now, sent).outcome
        == if sent then OtpSent(|db.users|) else OtpSendFailed(|db.users|)
  {
    var db' := Register(db, email, name, phone, password, password, welcomeSent).db;
    var found := FindUsername(db'.users, email);
    assert db'.users[|db.users|].username == email;
    assert UsernameTaken(db'.users, email);
  }

  /** Submitting the emailed code within ten minutes of issue completes the
      login as the user whose credentials were checked, unless the session
      was logged in as somebody else, which ends in a server error. */
  lemma LoginThenVerify(db: Db, session: Session, email: string, password: string,
                        code: string, issued: int, now: int)
    requires IsOtpCode(code)
    requires Login(db, session, email, password, code, issued, true).outcome.OtpSent?
    requires now - issued <= OtpValiditySeconds
    ensures var l := Login(db, session, email, password, code, issued, true);
      var v := Verify(l.db, l.session, Some(code), now);
      var id := l.outcome.userId;
      && v.outcome == (if KeepsSessionOnLogin(session, id) then LoggedIn(id) else LoginCrashed(id))
      && (KeepsSessionOnLogin(session, id) ==> v.session.authUser == Some(id))
      && v.session.pending.None?
  {
  }

  /** A login attempt, checked `now`, that is more than ten minutes after the
      code was issued never logs anybody in, whatever code is submitted. */
  lemma LateCodeNeverLogsIn(db: Db, session: Session, email: string, password: string,
                            code: string, issued: int, submitted: Option<string>, now: int)
    requires IsOtpCode(code)
    requires Login(db, session, email, password, code, issued, true).outcome.OtpSent?
    requires now - issued > OtpValiditySeconds
    ensures var l := Login(db, session, email, password, code, issued, true);
      var v := Verify(l.db, l.session, submitted, now);
      && v.outcome == OtpExpired
      && v.session == session.(pending := None)
  {
  }

  /** Once a code has been accepted it cannot be used again for the same
      user, from this session or from any other that still carries a
      pending login for that user. */
  lemma AcceptedCodeCannotBeReplayed(db: Db, session: Session, code: string, now: int,
                                     other: Session, later: int)
    requires Verify(db, session, Some(code), now).outcome.Accepted()
    requires other.pending.Some? && other.pending.value.userId == session.pending.value.userId
    ensures var v := Verify(db, session, Some(code), now);
      && Verify(v.db, v.session, Some(code), later).outcome == NoPendingLogin
      && !Verify(v.db, other, Some(code), later).outcome.Accepted()
  {
    var v := Verify(db, session, Some(code), now);
    assert v.db.profiles[session.pending.value.userId].otp.None?;
  }

  /** A request whose code field is missing matches a profile whose code has
      already been consumed (the stored value and the submitted one are both
      absent), so a second session still holding a pending login for that
      user gets past the code check within the ten minutes. */
  lemma MissingCodeMatchesConsumedCode(db: Db, session: Session, code: string, now: int,
                                       other: Session, later: int)
    requires Verify(db, session, Some(code), now).outcome.Accepted()
    requires other.pending.Some? && other.pending.value.userId == session.pending.value.userId
    requires !Expired(db.profiles[session.pending.value.userId].otpCreatedAt, later)
    ensures var v := Verify(db, session, Some(code), now);
      var id := session.pending.value.userId;
      Verify(v.db, other, None, later).outcome
        == if KeepsSessionOnLogin(other, id) then LoggedIn(id) else LoginCrashed(id)
  {
  }

  /** A sequence of code submissions, each with the time it arrives, made
      from one session. */
  function VerifyEach(db: Db, session: Session, attempts: seq<(Option<string>, int)>): (r: (Db, Session))
    ensures session.pending.None? ==> r == (db, session)
    decreases |attempts|
  {
    if attempts == [] then (db, session)
    else
      var v := Verify(db, session, attempts[0].0, attempts[0].1);
      VerifyEach(v.db, v.session, attempts[1..])
  }

  /** Wrong codes submitted within the window change nothing, so any number
      of them can be followed by the right code, which is then accepted:
      there is no lockout. */
  lemma {:induction false} WrongCodesDoNotLockOut(db: Db, session: Session,
                                                  attempts: seq<(Option<string>, int)>, now: int)
    requires session.pending.Some?
    requires session.pending.value.userId < |db.users| && session.pending.value.userId in db.profiles
    requires forall k :: 0 <= k < |attempts| ==>
      && !Expired(db.profiles[session.pending.value.userId].otpCreatedAt, attempts[k].1)
      && attempts[k].0 != db.profiles[session.pending.value.userId].otp
    requires !Expired(db.profiles[session.pending.value.userId].otpCreatedAt, now)
    ensures VerifyEach(db, session, attempts) == (db, session)
    ensures var id := session.pending.value.userId;
      Verify(db, session, db.profiles[id].otp, now).outcome
        == if KeepsSessionOnLogin(session, id) then LoggedIn(id) else LoginCrashed(id)
    decreases |attempts|
  {
    if attempts != [] {
      var v := Verify(db, session, attempts[0].0, attempts[0].1);
      assert v.outcome == OtpInvalid;
      assert v.db == db && v.session == session;
      WrongCodesDoNotLockOut(db, session, attempts[1..], now);
    }
  }
}

=== FILE: wrappers.dfy ===
/** Optional values, standing for the nullable columns and absent form fields
    of the storefront. */
module Wrappers {

  datatype Option<+T> = None | Some(value: T) {

    /** Returns the value held in Some, or `default` when None. */
    function GetOr(default: T): T {
      match this
      case Some(v) => v
      case None => default
    }
  }
}
